=== FILE: README.md ===
# Separate-chaining hash map with string keys

A Dafny model of a small TypeScript hash map. The map keeps an array of
slots. Each slot is either `null` or a singly linked bucket chain of
`{key, value}` nodes. It has a polynomial string hash (`h := 31 * h + code`)
reduced modulo the capacity. The capacity starts at 4. When a `set` appends
a new key to an existing chain and the entry count then reaches three
quarters of the capacity, the map rebuilds itself at twice the capacity. A
`set` that fills an empty slot never checks the load.

The project has these files:

- `wrappers.dfy`: the `Option` type used for `null` results.
- `js_value.dfy`: the stored values, with JavaScript truthiness.
- `linked_list.dfy`: the bucket chain. It is modelled as the sequence of
  entries reachable from `head` plus the separate `size` counter. Every
  operation is defined on every chain the source can handle without
  dereferencing `null`, whether or not the counter matches the nodes. The
  exact crash conditions are its preconditions.
- `hash_map.dfy`: the map as an immutable record. Each public method is a
  function from the map before the call to the map after it (or to its
  result). It contains `hash`, `index`, `set`, `growCapacity` with its
  rebuild loop, `get`, `has`, `remove`, `length`, `clear`, `keys`, `values`
  and `entries`. It also contains a corrected `remove`.
- `hash_map_facts.dfy`: the representation invariant `Sound` and what every
  operation means under it. Under `Sound`:
  - every chain sits in the slot its keys index to;
  - keys are unique;
  - chain counters are right;
  - `_length` counts the stored entries.

  `set` and the growth rebuild call each other. Their proofs are mutually
  recursive lemmas that mirror the functions' own termination argument.
- `demo.dfy`: concrete runs from a new map at capacity 4.

Three facts about termination and growth:

- **Why `set` ↔ `growCapacity` terminates.** Every growth doubles the
  capacity. During a rebuild, the number of stored nodes plus the number
  of pairs still to be re-inserted never rises. Growth needs
  `4 * _length >= 3 * _capacity`. So the quantity `Headroom` strictly falls
  around the cycle.
- **A rebuild can grow again.** A `set` issued by the rebuild may itself
  trigger growth. Nothing in the model assumes that one growth is enough.
  `Demo.RebuildGrowsAgain` shows it happening. The keys `"@"`, `"H"`,
  `"A"`, `"B"`, `"C"` and `"K"` are inserted at capacity 4. The sixth
  insertion grows the map to 8. The rebuild's own sixth `set` then grows it
  again, to 16. All six entries survive.
- **The four demonstration inserts never grow the map.** They are
  "rafet", "esma", "zeynep" and "a" (index.ts:153-156). With capacity 4
  and load factor 0.75 the threshold is 3, which suggests growth at the
  third insert. But a `set` that opens a `null` slot returns before the
  load check (index.ts:45-50). Only the "esma" insert appends to an
  existing chain, at `_length` 2, below the threshold. So the map stays at
  capacity 4 (`Demo.DemoRun`).

`keys()` and `values()` can be shorter than `length()`, and then no longer
line up with `entries()`. `getKeys` drops the empty key (linkedList.ts:127),
and `getValues` drops falsy values such as `0`, `0n`, `""`, `false`, `null`,
`undefined` and `NaN` (linkedList.ts:139). The model keeps these filters.
`HashMapFacts.AccessorsAlign` proves that the three accessors have
`length()` elements and line up only for maps that store no `""` key and no
falsy value.

## Model

| member | source | states |
|---|---|---|
| `LinkedList.NodeAt` | linkedList.ts:63-76 | walking from the head reaches the `i`-th entry exactly when `0 <= i <` node count; a negative index never matches |
| `LinkedList.LastNode` | linkedList.ts:54-61 | following `next` until `null` ends at the last node |
| `LinkedList.FirstKeyIndex` | linkedList.ts:159-171 | finds a position exactly when some node has the key, and the position is the first such node |
| `LinkedList.KeysFrom` | linkedList.ts:123-133 | collects exactly the non-empty node keys; when no key is `""` it collects every key, in chain order |
| `LinkedList.ValuesFrom` | linkedList.ts:135-145 | collects exactly the truthy node values; when all are truthy it collects every value, in chain order |
| `LinkedList.PairsFrom` | linkedList.ts:147-157 | one `[key, value]` per node, in chain order |
| `LinkedList.Append` | linkedList.ts:26-38 | the counter rises by one; on a consistent chain the entry becomes the new tail; the counter never exceeds the node count afterwards if it did not before |
| `LinkedList.Prepend` | linkedList.ts:40-44 | the entry becomes the head and the old nodes follow it unchanged; the counter rises by one |
| `LinkedList.GetSize` | linkedList.ts:46-48 | on a consistent chain it is the node count |
| `LinkedList.TailNode` | linkedList.ts:54-61 | on a consistent chain it is `null` exactly for an empty chain, and otherwise it is the last entry |
| `LinkedList.At` | linkedList.ts:63-76 | yields the `i`-th entry exactly when the counter is nonzero and `i` is a node position |
| `LinkedList.Shift` | linkedList.ts:78-83 | drops the head and one from the counter unless the counter is 0 |
| `LinkedList.Pop` | linkedList.ts:85-97 | on a consistent nonempty chain it drops the last entry |
| `LinkedList.ContainsKey` | linkedList.ts:110-121 | true exactly when some node has the key, whatever the counter says |
| `LinkedList.FindIndex` | linkedList.ts:159-171 | `null` on a zero counter; otherwise the first position holding the key, or `null` if none does |
| `LinkedList.GetKeys` | linkedList.ts:123-133 | holds exactly the non-empty keys of the nodes, whatever the counter says; on a consistent chain with no `""` key it has `getSize()` elements |
| `LinkedList.GetValues` | linkedList.ts:135-145 | holds exactly the truthy values of the nodes; on a consistent chain whose values are all truthy it has `getSize()` elements |
| `LinkedList.GetEntries` | linkedList.ts:147-157 | one `[key, value]` per node, in chain order; on a consistent chain `getSize()` of them |
| `LinkedList.InsertAt` | linkedList.ts:173-193 | an index outside `[0, size]` changes nothing; otherwise the counter rises by one, and on a consistent chain the entry is spliced in at that position |
| `LinkedList.RemoveAt` | linkedList.ts:195-204 | an index outside `[0, size)` changes nothing; otherwise that node is unlinked (when it exists) and the counter drops by one |
| `LinkedList.RemoveAtNull` | linkedList.ts:195-204 | `removeAt(null)` unlinks nothing; it leaves a zero counter alone and lowers any other counter by exactly one, so a consistent nonempty chain becomes inconsistent |
| `LinkedList.InsertAtNull` | linkedList.ts:173-193 | `insertAt(e, null)` links nothing but raises the counter, so a consistent chain becomes inconsistent |
| `LinkedList.ShiftPrepend` | linkedList.ts:78-83 | `shift` undoes `prepend` on every chain |
| `LinkedList.PopAppend` | linkedList.ts:85-97 | `pop` undoes `append` on a consistent chain |
| `LinkedList.TailAfterAppend` | linkedList.ts:26-38 | after `append(e)` the tail is `e` |
| `LinkedList.RemoveAtInsertAt` | linkedList.ts:195-204 | `removeAt(i)` undoes `insertAt(e, i)` for every in-range `i` |
| `LinkedList.InsertAtRemoveAt` | linkedList.ts:173-193 | re-inserting the removed entry at the same index restores the chain |
| `LinkedList.AtFindIndex` | linkedList.ts:159-171 | the position `findIndex` reports can be read with `at`, and its entry has the key |
| `HashMap.Nulls` | index.ts:7-9 | the initial slot array: `count` slots, all `null` |
| `HashMap.New` | index.ts:4-9 | a new map has capacity 4, `_length` 0 and four slots, all `null` |
| `HashMap.ComputeHash` | index.ts:23-32 | the loop over the characters computes the polynomial hash |
| `HashMap.HashConcat` | index.ts:23-32 | the hash of a concatenation is the first part's hash shifted by one factor of 31 per character of the second, plus the second's hash |
| `HashMap.HashBound` | index.ts:23-32 | a key of `n` characters with largest code `M` hashes to at most `M * (31^n - 1) / 30` |
| `HashMap.HashFitsDouble` | index.ts:23-32 | every key of at most 8 Basic Multilingual Plane characters, and every ASCII key of at most 10, hashes below `2^53`, where the source's double arithmetic is exact |
| `HashMap.Index` | index.ts:34-40 | the index is in `[0, capacity)`, so the out-of-bound `throw` is unreachable |
| `HashMap.Put` | index.ts:48 | writing slot `i` sets that slot and leaves every other slot as it was |
| `HashMap.AllPairsMembers` | index.ts:138-148 | a pair is among the concatenated bucket entries exactly when some slot's chain holds it |
| `HashMap.Entries` | index.ts:138-148 | `null` exactly when `_length` is 0 |
| `HashMap.Keys` | index.ts:114-124 | `null` exactly when `_length` is 0 |
| `HashMap.Values` | index.ts:126-136 | `null` exactly when `_length` is 0 |
| `HashMap.Clear` | index.ts:109-112 | `count` null slots, `_length` 0, capacity field unchanged |
| `HashMap.Overwrite` | index.ts:53-57 | on a consistent chain, `removeAt` then `insertAt` at `findIndex(key)` replaces that one entry in place |
| `HashMap.Set` | index.ts:42-66 | keeps every chain counter within its node count, never shrinks the capacity, and raises `Potential` (the larger of the node count and `_length`) by at most one |
| `HashMap.Grow` | index.ts:11-21 | a map with nonzero `_length` at least doubles its capacity; `Potential` does not rise |
| `HashMap.SetAll` | index.ts:17-19 | the rebuild loop never shrinks the capacity and raises `Potential` by at most one per pair |
| `HashMap.BucketGet` | index.ts:75-82 | a value found in the chain belongs to an entry with that key |
| `HashMap.Get` | index.ts:68-83 | a value returned is stored under the key in the key's slot |
| `HashMap.Has` | index.ts:85-93 | true exactly when the key's slot holds an entry for the key |
| `HashMap.Remove` | index.ts:95-103 | a key whose slot is `null` leaves the map unchanged; otherwise `_length` drops by one whether or not the key was found; the capacity and every chain's counter bound are kept |
| `HashMap.RemoveGuarded` | index.ts:95-103 | the corrected `remove`: keeps the capacity and the counter bound of every chain |
| `HashMapFacts.BucketGetGood` | index.ts:75-82 | in a chain with distinct keys, `get`'s walk yields `v` exactly when the chain holds `(key, v)` |
| `HashMapFacts.GetSound` | index.ts:68-83 | under the invariant, `get` yields `v` exactly when `(key, v)` is stored in the key's slot |
| `HashMapFacts.HasIffGet` | index.ts:85-93 | under the invariant, `has` is true exactly when `get` finds an entry (`Some`), whatever value that entry stores |
| `HashMapFacts.Snapshot` | index.ts:12-13 | the `entries()` snapshot has distinct keys, and replaying it on an empty map gives back every lookup |
| `HashMapFacts.NewChainSound` | index.ts:45-51 | the `null`-slot path keeps the invariant, assigns the key and counts one more entry |
| `HashMapFacts.OverwriteGet` | index.ts:53-57 | replacing an entry in place changes only that key's lookup |
| `HashMapFacts.ReplaceSound` | index.ts:53-57 | the replace path keeps the invariant and `_length`, and assigns the key |
| `HashMapFacts.AppendSound` | index.ts:60-61 | the append path keeps the invariant, assigns the key and counts one more entry |
| `HashMapFacts.SetSound` | index.ts:42-66 | `set` keeps the invariant, makes `get(key)` return the value, leaves every other key's lookup alone, and raises `_length` exactly when the key was absent |
| `HashMapFacts.GrowSound` | index.ts:11-21 | growth keeps the invariant, every lookup and `_length` |
| `HashMapFacts.SetAllSound` | index.ts:17-19 | the rebuild loop keeps the invariant and leaves each key with the last value set for it; pairs with distinct, absent keys add one entry each |
| `HashMapFacts.NewSound` | index.ts:4-9 | a new map is sound, and every lookup misses |
| `HashMapFacts.SetSequence` | index.ts:42-66 | any run of `set` calls from a new map leaves each key with its last value, and distinct keys give `length()` equal to the number of calls, whatever growth happens |
| `HashMapFacts.SetTwice` | index.ts:53-57 | setting a key twice keeps the second value and counts the key once |
| `HashMapFacts.SetReplacesInPlace` | index.ts:53-57 | on a present key, only that node's value changes: same chain, same position, same counter, same capacity |
| `HashMapFacts.SetGrowsWhen` | index.ts:42-66 | the capacity changes exactly when `set` appends to an existing chain and the raised `_length` reaches three quarters of the capacity; it then at least doubles |
| `HashMapFacts.RemoveAtGet` | linkedList.ts:195-204 | unlinking the node `findIndex(key)` found hides that key and no other |
| `HashMapFacts.RemoveGuardedSound` | index.ts:95-103 | the guarded `remove` keeps the invariant, makes the key absent, leaves other lookups alone, and lowers `_length` exactly when the key was present |
| `HashMapFacts.RemovePresent` | index.ts:95-103 | on a present key, `remove` as written equals the guarded version |
| `HashMapFacts.RemoveThenAbsent` | index.ts:95-103 | even as written, `get(key)` and `has(key)` miss after `remove(key)` |
| `HashMap.PutSameNodes` | index.ts:100-101 | writing back a chain that has the same nodes (only the counter changed) leaves the stored pairs unchanged |
| `HashMapFacts.RemoveAbsentDesyncs` | index.ts:95-103 | as written, removing an absent key whose slot holds a chain unlinks nothing, so the stored pairs stay the same, yet `_length` drops and the invariant breaks |
| `HashMapFacts.ClearEmpties` | index.ts:109-112 | after `clear`, for any slot count, the map is sound and empty, and `keys`, `values` and `entries` are `null` |
| `HashMapFacts.EntriesMeanGet` | index.ts:138-148 | under the invariant, `entries()` holds exactly the pairs `get` answers, each key once, `length()` of them |
| `HashMapFacts.PairsMeanGet` | index.ts:68-83 | under the invariant, the stored pairs are exactly the pairs `get` answers, with no key twice |
| `HashMapFacts.LengthCountsKeys` | index.ts:105-107 | under the invariant, `length()` is the number of distinct keys, and a key is among them exactly when `has` finds it |
| `HashMapFacts.KeysValuesOfEntries` | index.ts:114-136 | `keys()` and `values()` are `entries()` with the `""` key and the falsy values filtered out |
| `HashMapFacts.AccessorsAlign` | index.ts:114-148 | with no `""` key and no falsy value stored, `keys`, `values` and `entries` each have `length()` elements and line up by position |
| `Demo.DemoRun` | index.ts:153-156 | the four demonstration inserts end at capacity 4 and length 4, with every key retrievable |
| `Demo.SetIntoEmpty` | index.ts:42-51 | `set` on a key whose slot is `null` puts a one-node chain there and raises `_length` by one, without a load check |
| `Demo.SetOntoChain` | index.ts:52-66 | `set` on a new key whose slot holds a consistent chain (counter equal to node count) appends the entry and raises `_length`; growth follows exactly when `4 * _length >= 3 * _capacity` |
| `Demo.SixPairs` | index.ts:138-148 | `entries()` of the six-key map lists the pairs in slot order, chain by chain, which here is insertion order |
| `Demo.SnapshotOfSix` | index.ts:11-21 | growth of the six-key map re-inserts exactly that snapshot into `2 * capacity` empty slots |
| `Demo.ReplayGrows` | index.ts:11-21 | re-inserting the six pairs from 4 or 8 empty slots ends in a growth that re-inserts them from twice as many |
| `Demo.RebuildGrowsAgain` | index.ts:11-21 | six `set` calls from a new map reach capacity 16: the rebuild at capacity 8 grows again, and every entry ends in a chain of its own |
| `Demo.RemoveAbsentHidesKey` | index.ts:95-103 | as written, `remove("e")` on a map holding only `"a"` leaves `length()` at 0 and makes `get("a")` miss while `has("a")` still finds it; the guarded version changes nothing |

## Left out

- Floating-point hashing. The source computes the hash in IEEE doubles and the model in exact integers. The two agree while the exact hash stays below 2^53, because every running value is then an exactly representable integer; `HashMap.HashFitsDouble` shows this for every key of at most 8 Basic Multilingual Plane characters and every ASCII key of at most 10. For longer keys the source's hash is rounded, and its slot can differ from the model's.
- Hash overflow to `Infinity`. For keys of about 200 characters or more (207 for a key of `a`s), the double hash overflows to `Infinity`, and `Infinity % capacity` is `NaN`. The range check at index.ts:36 is false for `NaN`, so nothing is thrown, and `_buckets[NaN] = list` stores the chain under a property that is not an array index. `forEach` skips such a property. So these entries are missing from `keys()`, `values()` and `entries()`, and the next growth drops them. The model gives every key an integer slot and does not reproduce this.
- Characters outside the Basic Multilingual Plane are modelled as Dafny `char` values. `charCodeAt` works on UTF-16 code units, so for those characters the model's hash is not the source's.
- The load factor `0.75` is a float. The check `_length >= _capacity * 0.75` is modelled as the exact integer comparison `4 * _length >= 3 * _capacity`. The two agree for every integer length and capacity.
- `contains` (linkedList.ts:99-108) compares whole node payloads by reference, and the map never calls it. It is not modelled.
- `headNode` and the `Node` class are not modelled as references. A chain is the sequence of its reachable entries, and nothing outside a chain holds a node.
- `Node`'s `data` may be `null` in the source, but every node the map creates carries an entry. So entries are never absent in the model, and the `data?.` tests always succeed.
- `get` returns `null` for a missing key (index.ts:72, 78), modelled as `None`. It returns the stored value otherwise (index.ts:82), so in the source a stored `null` cannot be told apart from a miss: after `set(k, null)`, `has(k)` is true and `get(k)` is `null`. The model keeps the two apart as `None` and `Some(Null)`, and a stored `undefined` as `Some(Undefined)`.
- `clear(c)` with a negative or non-integer `c` throws in JavaScript, so the model's `count` is a `nat`. A `c` below the capacity leaves fewer slots than the capacity. A later write past the end extends the JavaScript array and leaves holes that read as `undefined`. Every caller treats `undefined` like `null`, so the model fills the holes with `None`.
- HashMap.Set requires every chain's counter to be at most its node count. That is a sufficient condition for the walks in `append` to stay off `null`, not a necessary one: `append` needs only a non-null head when the counter is nonzero, so a one-node chain with counter 5 appends fine. Every map the public methods can reach meets the stronger condition, because `HashMap.Remove` and `HashMap.Set` keep it.
- The demonstration script's `console.log` calls and the commented-out calls are not modelled. The four live `set` calls are `Demo.DemoRun`.
- Object, array and function values are modelled only by identity (`Object(ref)`). The map never looks inside a value.

## Findings

| source | as written | input that shows it | evidently intended | confidence | as-written member | corrected member |
|---|---|---|---|---|---|---|
| index.ts:95-103 | `_length--` runs whether or not `findIndex` found the key, and `removeAt(null)` lowers a nonzero chain counter without unlinking anything | at capacity 4, `set("a", 1)` then `remove("e")` (both keys index to slot 1): `length()` becomes 0, and `get("a")` returns `null` while `has("a")` is true | decrement and unlink only when the key is found; an absent key leaves the map unchanged | high; not executed | `HashMapFacts.RemoveAbsentDesyncs` | `HashMap.RemoveGuarded` |

=== FILE: demo.dfy ===
/** Concrete runs of the hash map at its initial capacity of 4. */
module Demo {

  import opened Wrappers
  import opened JsValue
  import opened LinkedList
  import opened HashMap

  lemma HashRafet()
    ensures Hash("rafet") == 108272390
  {
    assert "rafet"[..4] == "rafe";
    assert "rafe"[..3] == "raf";
    assert "raf"[..2] == "ra";
    assert "ra"[..1] == "r";
    assert "r"[..0] == "";
  }

  lemma HashEsma()
    ensures Hash("esma") == 3122882
  {
    assert "esma"[..3] == "esm";
    assert "esm"[..2] == "es";
    assert "es"[..1] == "e";
    assert "e"[..0] == "";
  }

  lemma HashZeynep()
    ensures Hash("zeynep") == 3589745707
  {
    assert "zeynep"[..5] == "zeyne";
    assert "zeyne"[..4] == "zeyn";
    assert "zeyn"[..3] == "zey";
    assert "zey"[..2] == "ze";
    assert "ze"[..1] == "z";
    assert "z"[..0] == "";
  }

  const Rafet := Entry("rafet", Object(0))
  const Esma := Entry("esma", Object(1))
  const Zeynep := Entry("zeynep", Str("second"))
  const A := Entry("a", Number(1.0))

  lemma DemoFirst()
    ensures Set(New(), "rafet", Object(0)) == Map([None, None, Some(List([Rafet], 1)), None], 1, 4)
  {
    HashRafet();
    assert New().buckets == [None, None, None, None];
    assert Index("rafet", 4) == 2;
  }

  lemma DemoSecond()
    ensures var m := Map([None, None, Some(List([Rafet], 1)), None], 1, 4);
            Set(m, "esma", Object(1)) == Map([None, None, Some(List([Rafet, Esma], 2)), None], 2, 4)
  {
    HashEsma();
    assert Index("esma", 4) == 2;
    assert "rafet" != "esma" by { assert "rafet"[0] != "esma"[0]; }
    assert !ContainsKey(List([Rafet], 1), "esma");
    assert Append(List([Rafet], 1), Esma) == List([Rafet, Esma], 2);
  }

  lemma DemoThird()
    ensures var m := Map([None, None, Some(List([Rafet, Esma], 2)), None], 2, 4);
            Set(m, "zeynep", Str("second")) ==
              Map([None, None, Some(List([Rafet, Esma], 2)), Some(List([Zeynep], 1))], 3, 4)
  {
    HashZeynep();
    assert Index("zeynep", 4) == 3;
  }

  lemma DemoFourth()
    ensures var m := Map([None, None, Some(List([Rafet, Esma], 2)), Some(List([Zeynep], 1))], 3, 4);
            Set(m, "a", Number(1.0)) == DemoMap
  {
    assert Hash("a") == 97 by {
      assert "a"[..0] == "";
    }
    assert Index("a", 4) == 1;
  }

  /** The map the demonstration script builds. */
  const DemoMap := Map([None, Some(List([A], 1)), Some(List([Rafet, Esma], 2)), Some(List([Zeynep], 1))], 4, 4)

  lemma DemoLookups()
    ensures Get(DemoMap, "a") == Some(Number(1.0)) && Has(DemoMap, "a")
    ensures Get(DemoMap, "rafet") == Some(Object(0)) && Get(DemoMap, "esma") == Some(Object(1))
    ensures Get(DemoMap, "zeynep") == Some(Str("second"))
  {
    HashRafet();
    HashEsma();
    HashZeynep();
    assert Hash("a") == 97 by {
      assert "a"[..0] == "";
    }
    assert "rafet" != "esma" by { assert "rafet"[0] != "esma"[0]; }
    assert Index("esma", 4) == 2;
    assert [Rafet, Esma][1..] == [Esma];
    assert FirstKeyIndex([Esma], "esma") == Some(0);
    assert FindIndex(List([Rafet, Esma], 2), "esma") == Some(1);
  }

  /** The four `set` calls of the demonstration script: "rafet" and "esma"
      share slot 2, "zeynep" takes slot 3 and "a" slot 1. Only the "esma"
      insertion reaches the load check, with `_length` 2 against a threshold
      of 3, so the map never grows: it ends with capacity 4 and length 4. */
  lemma DemoRun()
    ensures var m := Set(Set(Set(Set(New(), "rafet", Object(0)), "esma", Object(1)), "zeynep", Str("second")), "a", Number(1.0));
            && m.capacity == 4 && Length(m) == 4
            && Get(m, "a") == Some(Number(1.0)) && Has(m, "a")
            && Get(m, "rafet") == Some(Object(0)) && Get(m, "esma") == Some(Object(1))
            && Get(m, "zeynep") == Some(Str("second"))
  {
    DemoFirst();
    DemoSecond();
    DemoThird();
    DemoFourth();
    DemoLookups();
  }

  /** `remove` as written on a key its slot's chain lacks: "e" and "a" both
      index to slot 1 at capacity 4, so removing "e" from a map holding only
      "a" drops that chain's counter to 0 while its node stays linked.
      Afterwards `length` reads 0 and `get("a")` misses, though `has("a")`,
      which walks the nodes, still finds it. The guarded `remove` leaves the
      map alone. */
  lemma RemoveAbsentHidesKey()
    ensures var m := Set(New(), "a", Number(1.0));
            var r := Remove(m, "e");
            && Length(r) == 0 && Get(r, "a") == None && Has(r, "a")
            && RemoveGuarded(m, "e") == m && Get(RemoveGuarded(m, "e"), "a") == Some(Number(1.0))
  {
    assert Hash("a") == 97 by {
      assert "a"[..0] == "";
    }
    assert Hash("e") == 101 by {
      assert "e"[..0] == "";
    }
    var m0 := New();
    assert m0.buckets == [None, None, None, None];
    var b := List([Entry("a", Number(1.0))], 1);
    var m := Set(m0, "a", Number(1.0));
    assert m == Map([None, Some(b), None, None], 1, 4);
    assert Index("e", 4) == 1;
    assert FindIndex(b, "e") == None by {
      assert "a" != "e" by { assert "a"[0] != "e"[0]; }
    }
    var r := Remove(m, "e");
    assert r == Map([None, Some(List([Entry("a", Number(1.0))], 0)), None, None], 0, 4);
  }

  // ---------------------------------------------------------------------
  // A rebuild that grows again
  // ---------------------------------------------------------------------

  /** A chain whose counter matches its nodes. */
  function Chain(es: seq<Entry>): Option<List>
  {
    Some(List(es, |es|))
  }

  lemma HashOneChar(c: char)
    ensures Hash([c]) == c as int
  {
    assert [c][..0] == [];
  }

  const E1 := Entry("@", Number(1.0))
  const E2 := Entry("H", Number(2.0))
  const E3 := Entry("A", Number(3.0))
  const E4 := Entry("B", Number(4.0))
  const E5 := Entry("C", Number(5.0))
  const E6 := Entry("K", Number(6.0))

  /** The six pairs in the order `entries()` lists them at capacity 4 and at 8. */
  const Snap: seq<Pair> := [("@", Number(1.0)), ("H", Number(2.0)), ("A", Number(3.0)),
                            ("B", Number(4.0)), ("C", Number(5.0)), ("K", Number(6.0))]

  lemma Indices()
    ensures Index("@", 4) == 0 && Index("H", 4) == 0 && Index("A", 4) == 1
    ensures Index("B", 4) == 2 && Index("C", 4) == 3 && Index("K", 4) == 3
    ensures Index("@", 8) == 0 && Index("H", 8) == 0 && Index("A", 8) == 1
    ensures Index("B", 8) == 2 && Index("C", 8) == 3 && Index("K", 8) == 3
    ensures Index("@", 16) == 0 && Index("H", 16) == 8 && Index("A", 16) == 1
    ensures Index("B", 16) == 2 && Index("C", 16) == 3 && Index("K", 16) == 11
  {
    HashOneChar('@');
    HashOneChar('H');
    HashOneChar('A');
    HashOneChar('B');
    HashOneChar('C');
    HashOneChar('K');
  }

  /** The map before the sixth insertion, at capacity `c` with `c` slots. */
  function BeforeLast(c: Capacity): Map
    requires c == 4 || c == 8
  {
    var tail := if c == 4 then [] else [None, None, None, None];
    Map([Chain([E1, E2]), Chain([E3]), Chain([E4]), Chain([E5])] + tail, 5, c)
  }

  /** The same map after the sixth entry is appended, before the load check. */
  function Crowded(c: Capacity): Map
    requires c == 4 || c == 8
  {
    Map(SixSlots + Nulls(c - 4), 6, c)
  }

  /** The four occupied slots of `Crowded`. */
  const SixSlots := [Chain([E1, E2]), Chain([E3]), Chain([E4]), Chain([E5, E6])]

  /** All six entries at capacity 16, each in a chain of its own. */
  const Spread := Map([Chain([E1]), Chain([E3]), Chain([E4]), Chain([E5]), None, None, None, None,
                      Chain([E2]), None, None, Chain([E6]), None, None, None, None], 6, 16)

  /** Chains built by `Chain` are always linked. */
  lemma BuiltChainsLinked(m: Map)
    requires forall i :: 0 <= i < |m.buckets| ==> m.buckets[i] == None || m.buckets[i] == Chain(m.buckets[i].value.entries)
    ensures ChainsLinked(m)
  {
    forall i: nat | Slot(m.buckets, i).Some?
      ensures Linked(Slot(m.buckets, i).value)
    {
      assert m.buckets[i] == Chain(m.buckets[i].value.entries);
    }
  }

  /** One step of a run of `set` calls. */
  lemma SetAllStep(m: Map, m': Map, pairs: seq<Pair>)
    requires ChainsLinked(m) && pairs != []
    requires Set(m, pairs[0].0, pairs[0].1) == m'
    ensures ChainsLinked(m')
    ensures SetAll(m, pairs) == SetAll(m', pairs[1..])
  {
  }

  /** `set` into an empty slot starts a chain and skips the load check. */
  lemma SetIntoEmpty(m: Map, key: Key, v: Value)
    requires ChainsLinked(m)
    requires Index(key, m.capacity) < |m.buckets| && m.buckets[Index(key, m.capacity)] == None
    ensures Set(m, key, v) == Map(m.buckets[Index(key, m.capacity) := Chain([Entry(key, v)])], m.length + 1, m.capacity)
  {
  }

  /** `set` of a new key into an occupied slot appends it, then checks the load. */
  lemma SetOntoChain(m: Map, key: Key, v: Value, es: seq<Entry>)
    requires ChainsLinked(m)
    requires Index(key, m.capacity) < |m.buckets| && m.buckets[Index(key, m.capacity)] == Chain(es)
    requires forall j :: 0 <= j < |es| ==> es[j].key != key
    ensures var m1 := Map(m.buckets[Index(key, m.capacity) := Chain(es + [Entry(key, v)])], m.length + 1, m.capacity);
            Set(m, key, v) == if 4 * m1.length >= 3 * m1.capacity then Grow(m1) else m1
  {
    assert !ContainsKey(List(es, |es|), key);
  }

  lemma Distinct()
    ensures "@" != "H" && "C" != "K"
  {
    assert "@"[0] != "H"[0];
    assert "C"[0] != "K"[0];
  }

  /** The map after the first `k` of the first five insertions at capacity
      `c` (4, or 8 during the first rebuild). */
  function Replayed(c: Capacity, k: nat): Map
    requires c == 4 || c == 8
    requires k <= 5
  {
    var n := None;
    var tail: seq<Option<List>> := if c == 4 then [] else [n, n, n, n];
    if k == 0 then Map([n, n, n, n] + tail, 0, c)
    else if k == 1 then Map([Chain([E1]), n, n, n] + tail, 1, c)
    else if k == 2 then Map([Chain([E1, E2]), n, n, n] + tail, 2, c)
    else if k == 3 then Map([Chain([E1, E2]), Chain([E3]), n, n] + tail, 3, c)
    else if k == 4 then Map([Chain([E1, E2]), Chain([E3]), Chain([E4]), n] + tail, 4, c)
    else BeforeLast(c)
  }

  lemma ReplayedLinked(c: Capacity, k: nat)
    requires c == 4 || c == 8
    requires k <= 5
    ensures ChainsLinked(Replayed(c, k))
  {
    BuiltChainsLinked(Replayed(c, k));
  }

  /** Insertion `k + 1` of the first five: only "H" appends to a chain, with
      `_length` 2, below the threshold. */
  lemma ReplayStep(c: Capacity, k: nat)
    requires c == 4 || c == 8
    requires k < 5
    ensures ChainsLinked(Replayed(c, k))
    ensures Set(Replayed(c, k), Snap[k].0, Snap[k].1) == Replayed(c, k + 1)
  {
    if k == 0 { ReplayOpensSlot0(c); }
    else if k == 1 { ReplayAppendsToSlot0(c); }
    else if k == 2 { ReplayOpensSlot1(c); }
    else if k == 3 { ReplayOpensSlot2(c); }
    else { ReplayOpensSlot3(c); }
  }

  lemma ReplayOpensSlot0(c: Capacity)
    requires c == 4 || c == 8
    ensures ChainsLinked(Replayed(c, 0))
    ensures Set(Replayed(c, 0), "@", Number(1.0)) == Replayed(c, 1)
  {
    Indices();
    ReplayedLinked(c, 0);
    var m := Replayed(c, 0);
    SetIntoEmpty(m, "@", Number(1.0));
    assert m.buckets[0 := Chain([E1])] == Replayed(c, 1).buckets;
  }

  lemma ReplayAppendsToSlot0(c: Capacity)
    requires c == 4 || c == 8
    ensures ChainsLinked(Replayed(c, 1))
    ensures Set(Replayed(c, 1), "H", Number(2.0)) == Replayed(c, 2)
  {
    Indices();
    ReplayedLinked(c, 1);
    var m := Replayed(c, 1);
    Distinct();
    SetOntoChain(m, "H", Number(2.0), [E1]);
    assert [E1] + [E2] == [E1, E2];
    assert m.buckets[0 := Chain([E1, E2])] == Replayed(c, 2).buckets;
  }

  lemma ReplayOpensSlot1(c: Capacity)
    requires c == 4 || c == 8
    ensures ChainsLinked(Replayed(c, 2))
    ensures Set(Replayed(c, 2), "A", Number(3.0)) == Replayed(c, 3)
  {
    Indices();
    ReplayedLinked(c, 2);
    var m := Replayed(c, 2);
    SetIntoEmpty(m, "A", Number(3.0));
    assert m.buckets[1 := Chain([E3])] == Replayed(c, 3).buckets;
  }

  lemma ReplayOpensSlot2(c: Capacity)
    requires c == 4 || c == 8
    ensures ChainsLinked(Replayed(c, 3))
    ensures Set(Replayed(c, 3), "B", Number(4.0)) == Replayed(c, 4)
  {
    Indices();
    ReplayedLinked(c, 3);
    var m := Replayed(c, 3);
    SetIntoEmpty(m, "B", Number(4.0));
    assert m.buckets[2 := Chain([E4])] == Replayed(c, 4).buckets;
  }

  lemma ReplayOpensSlot3(c: Capacity)
    requires c == 4 || c == 8
    ensures ChainsLinked(Replayed(c, 4))
    ensures Set(Replayed(c, 4), "C", Number(5.0)) == Replayed(c, 5)
  {
    Indices();
    ReplayedLinked(c, 4);
    var m := Replayed(c, 4);
    SetIntoEmpty(m, "C", Number(5.0));
    assert m.buckets[3 := Chain([E5])] == Replayed(c, 5).buckets;
  }

  lemma {:induction false} ReplayRun(c: Capacity, k: nat)
    requires c == 4 || c == 8
    requires k <= 5
    ensures ChainsLinked(Replayed(c, k)) && ChainsLinked(BeforeLast(c))
    ensures SetAll(Replayed(c, k), Snap[k..]) == SetAll(BeforeLast(c), Snap[5..])
    decreases 5 - k
  {
    ReplayedLinked(c, k);
    if k < 5 {
      ReplayStep(c, k);
      SetAllStep(Replayed(c, k), Replayed(c, k + 1), Snap[k..]);
      assert Snap[k..][1..] == Snap[k + 1..];
      ReplayRun(c, k + 1);
    }
  }

  /** The sixth insertion appends "K" to the chain of "C" and lifts `_length`
      to 6, which reaches three quarters of 4 and of 8 alike. */
  lemma SixthGrows(c: Capacity)
    requires c == 4 || c == 8
    ensures ChainsLinked(Crowded(c))
    ensures SetAll(BeforeLast(c), Snap[5..]) == Grow(Crowded(c))
  {
    Indices();
    Distinct();
    var m := BeforeLast(c);
    BuiltChainsLinked(m);
    BuiltChainsLinked(Crowded(c));
    SetOntoChain(m, "K", Number(6.0), [E5]);
    assert [E5] + [E6] == [E5, E6];
    assert m.buckets[3 := Chain([E5, E6])] == Crowded(c).buckets;
    SetAllStep(m, Grow(Crowded(c)), Snap[5..]);
    assert Snap[5..][1..] == [];
  }

  lemma SixSlotPairs()
    ensures AllPairs(SixSlots) == Snap
  {
    var bs := SixSlots;
    assert bs[3..][1..] == [];
    assert AllPairs(bs[3..]) == [Snap[4], Snap[5]];
    assert bs[2..][1..] == bs[3..];
    assert AllPairs(bs[2..]) == [Snap[3], Snap[4], Snap[5]];
    assert bs[1..][1..] == bs[2..];
    assert AllPairs(bs[1..]) == Snap[2..];
  }

  /** `entries()` of the six-entry map lists the pairs in insertion order. */
  lemma SixPairs(c: Capacity)
    requires c == 4 || c == 8
    ensures AllPairs(Crowded(c).buckets) == Snap
  {
    SixSlotPairs();
    AllPairsConcat(SixSlots, Nulls(c - 4));
    AllPairsNulls(c - 4);
    assert Snap + [] == Snap;
  }

  /** Growing the six-entry map rebuilds from the snapshot `Snap`. */
  lemma SnapshotOfSix(c: Capacity)
    requires c == 4 || c == 8
    ensures ChainsLinked(Crowded(c))
    ensures Grow(Crowded(c)) == SetAll(Map(Nulls(2 * c), 0, 2 * c), Snap)
  {
    BuiltChainsLinked(Crowded(c));
    SixPairs(c);
    assert Entries(Crowded(c)) == Some(Snap);
  }

  /** The maps after the first `k` insertions of the second rebuild, at
      capacity 16, where every key gets a chain of its own. */
  const Spread0 := Map([None, None, None, None, None, None, None, None, None, None, None, None, None, None, None, None], 0, 16)
  const Spread1 := Map([Chain([E1]), None, None, None, None, None, None, None, None, None, None, None, None, None, None, None], 1, 16)
  const Spread2 := Map([Chain([E1]), None, None, None, None, None, None, None, Chain([E2]), None, None, None, None, None, None, None], 2, 16)
  const Spread3 := Map([Chain([E1]), Chain([E3]), None, None, None, None, None, None, Chain([E2]), None, None, None, None, None, None, None], 3, 16)
  const Spread4 := Map([Chain([E1]), Chain([E3]), Chain([E4]), None, None, None, None, None, Chain([E2]), None, None, None, None, None, None, None], 4, 16)
  const Spread5 := Map([Chain([E1]), Chain([E3]), Chain([E4]), Chain([E5]), None, None, None, None, Chain([E2]), None, None, None, None, None, None, None], 5, 16)

  lemma SpreadOpensSlot0()
    requires ChainsLinked(Spread0)
    ensures Set(Spread0, "@", Number(1.0)) == Spread1
  {
    HashOneChar('@');
    assert Index("@", 16) == 0;
    assert Spread0.buckets[0] == None;
    assert Spread0.buckets[0 := Chain([E1])] == Spread1.buckets;
    SetIntoEmpty(Spread0, "@", Number(1.0));
  }

  lemma SpreadOpensSlot8()
    requires ChainsLinked(Spread1)
    ensures Set(Spread1, "H", Number(2.0)) == Spread2
  {
    HashOneChar('H');
    assert Index("H", 16) == 8;
    assert Spread1.buckets[8] == None;
    assert Spread1.buckets[8 := Chain([E2])] == Spread2.buckets;
    SetIntoEmpty(Spread1, "H", Number(2.0));
  }

  lemma SpreadOpensSlot1()
    requires ChainsLinked(Spread2)
    ensures Set(Spread2, "A", Number(3.0)) == Spread3
  {
    HashOneChar('A');
    assert Index("A", 16) == 1;
    assert Spread2.buckets[1] == None;
    assert Spread2.buckets[1 := Chain([E3])] == Spread3.buckets;
    SetIntoEmpty(Spread2, "A", Number(3.0));
  }

  lemma SpreadOpensSlot2()
    requires ChainsLinked(Spread3)
    ensures Set(Spread3, "B", Number(4.0)) == Spread4
  {
    HashOneChar('B');
    assert Index("B", 16) == 2;
    assert Spread3.buckets[2] == None;
    assert Spread3.buckets[2 := Chain([E4])] == Spread4.buckets;
    SetIntoEmpty(Spread3, "B", Number(4.0));
  }

  lemma SpreadOpensSlot3()
    requires ChainsLinked(Spread4)
    ensures Set(Spread4, "C", Number(5.0)) == Spread5
  {
    HashOneChar('C');
    assert Index("C", 16) == 3;
    assert Spread4.buckets[3] == None;
    assert Spread4.buckets[3 := Chain([E5])] == Spread5.buckets;
    SetIntoEmpty(Spread4, "C", Number(5.0));
  }

  lemma SpreadOpensSlot11()
    requires ChainsLinked(Spread5)
    ensures Set(Spread5, "K", Number(6.0)) == Spread
  {
    HashOneChar('K');
    assert Index("K", 16) == 11;
    assert Spread5.buckets[11] == None;
    assert Spread5.buckets[11 := Chain([E6])] == Spread.buckets;
    SetIntoEmpty(Spread5, "K", Number(6.0));
  }

  /** The second rebuild: six insertions into empty slots at capacity 16. */
  lemma SpreadRun()
    ensures SetAll(Map(Nulls(16), 0, 16), Snap) == Spread
  {
    assert Map(Nulls(16), 0, 16) == Spread0;
    BuiltChainsLinked(Spread0);
    SpreadOpensSlot0();
    SetAllStep(Spread0, Spread1, Snap[0..]);
    assert Snap[0..][1..] == Snap[1..];
    SpreadOpensSlot8();
    SetAllStep(Spread1, Spread2, Snap[1..]);
    assert Snap[1..][1..] == Snap[2..];
    SpreadOpensSlot1();
    SetAllStep(Spread2, Spread3, Snap[2..]);
    assert Snap[2..][1..] == Snap[3..];
    SpreadOpensSlot2();
    SetAllStep(Spread3, Spread4, Snap[3..]);
    assert Snap[3..][1..] == Snap[4..];
    SpreadOpensSlot3();
    SetAllStep(Spread4, Spread5, Snap[4..]);
    assert Snap[4..][1..] == Snap[5..];
    SpreadOpensSlot11();
    SetAllStep(Spread5, Spread, Snap[5..]);
    assert Snap[5..][1..] == Snap[6..];
    assert Snap[6..] == [];
  }

  /** Replaying the six pairs from `c` empty slots (4, or 8 during the first
      rebuild) ends in a growth that replays them from `2 * c` empty slots. */
  lemma ReplayGrows(c: Capacity)
    requires c == 4 || c == 8
    ensures ChainsLinked(Map(Nulls(c), 0, c))
    ensures SetAll(Map(Nulls(c), 0, c), Snap) == SetAll(Map(Nulls(2 * c), 0, 2 * c), Snap)
  {
    var m0 := Map(Nulls(c), 0, c);
    assert Replayed(c, 0) == m0;
    ReplayedLinked(c, 0);
    assert Snap[0..] == Snap;
    calc {
      SetAll(m0, Snap);
      { ReplayRun(c, 0); }
      SetAll(BeforeLast(c), Snap[5..]);
      { SixthGrows(c); }
      Grow(Crowded(c));
      { SnapshotOfSix(c); }
      SetAll(Map(Nulls(2 * c), 0, 2 * c), Snap);
    }
  }

  /** Six insertions at capacity 4: the sixth triggers growth to 8, and the
      rebuild's own sixth `set` triggers growth again, to 16. One `set`
      call thus quadruples the capacity, and every entry survives. */
  lemma RebuildGrowsAgain()
    ensures SetAll(New(), Snap) == Spread
    ensures Spread.capacity == 16 && Length(Spread) == 6
  {
    ReplayGrows(4);
    ReplayGrows(8);
    SpreadRun();
  }


}

=== FILE: hash_map.dfy ===
/** The hash map of index.ts: an array of optional bucket chains, a
    polynomial string hash, separate chaining and a grow-and-rehash step.

    The map is an immutable record; each public method becomes a function
    from the map before the call to the map after it (and its result). */
module HashMap {

  import opened Wrappers
  import opened JsValue
  import opened LinkedList

  /** `_capacity`'s initial value. */
  const InitialCapacity: nat := 4

  /** The multiplier of the rolling hash. */
  const Prime: nat := 31

  /** `_capacity` starts at 4 and is only ever doubled, so it stays positive. */
  type Capacity = c: nat | 0 < c witness 4

  /** `_buckets`, `_length` and `_capacity`. `_length` is a plain counter:
      `remove` can drive it below the number of stored entries, and below 0. */
  datatype Map = Map(buckets: seq<Option<List>>, length: int, capacity: Capacity)

  /** `count` fresh `null` slots: `new Array(count).fill(null)`. */
  function Nulls(count: nat): (r: seq<Option<List>>)
    ensures |r| == count
    ensures forall i :: 0 <= i < count ==> r[i] == None
  {
    seq(count, _ => None)
  }

  /** A new map: four empty slots, nothing stored. */
  function New(): (r: Map)
    ensures r.capacity == 4 && r.length == 0 && |r.buckets| == 4
    ensures forall i: nat :: Slot(r.buckets, i) == None
  {
    Map(Nulls(InitialCapacity), 0, InitialCapacity)
  }

  // ---------------------------------------------------------------------
  // hash and index
  // ---------------------------------------------------------------------

  /** The largest character code in `key`, 0 for the empty key. */
  function MaxCode(key: Key): (r: nat)
    ensures forall i :: 0 <= i < |key| ==> key[i] as int <= r
    ensures key != [] ==> exists i :: 0 <= i < |key| && key[i] as int == r
    ensures key == [] ==> r == 0
  {
    if key == [] then 0
    else
      var m := MaxCode(key[..|key| - 1]);
      var c := key[|key| - 1] as int;
      if c <= m then m else c
  }

  /** `hash`: `h := 31 * h + charCode` over the key from left to right,
      starting at 0, in exact arithmetic. */
  function Hash(key: Key): nat
  {
    if key == [] then 0 else Prime * Hash(key[..|key| - 1]) + key[|key| - 1] as int
  }

  /** A key of `n` characters, none coded above `M`, hashes to at most
      `M * (31^n - 1) / 30`, the hash of `n` characters all coded `M`. */
  lemma {:induction false} HashBound(key: Key)
    ensures 30 * Hash(key) <= MaxCode(key) * (Pow(Prime, |key|) - 1)
  {
    if key != [] {
      var front := key[..|key| - 1];
      HashBound(front);
      HashStep(Hash(front), key[|key| - 1] as int, MaxCode(front), MaxCode(key), Pow(Prime, |front|));
    }
  }

  /** One character of the bound on `Hash`. */
  lemma HashStep(p: nat, c: nat, m': nat, m: nat, q: nat)
    requires q >= 1 && 30 * p <= m' * (q - 1)
    requires m' <= m && c <= m
    ensures 30 * (Prime * p + c) <= m * (Prime * q - 1)
  {
    assert m' * (q - 1) <= m * (q - 1);
    assert 30 * (Prime * p) <= Prime * (m * (q - 1));
    assert 30 * c <= 30 * m;
    assert Prime * (m * (q - 1)) + 30 * m == m * (Prime * q - 1);
  }

  /** Below `2^53` a double holds every integer exactly, and the running
      hash only grows from one character to the next; so for a key whose
      hash stays below `2^53` the source's floating-point loop computes
      `Hash` exactly. Every key of at most 8 characters from the Basic
      Multilingual Plane, and every ASCII key of at most 10, is such a key. */
  lemma HashFitsDouble(key: Key)
    requires (|key| <= 8 && MaxCode(key) <= 0xFFFF) || (|key| <= 10 && MaxCode(key) <= 0x7F)
    ensures Hash(key) < 0x20_0000_0000_0000
  {
    PowValues();
    HashBound(key);
    if |key| <= 8 {
      PowMonotone(Prime, |key|, 8);
      Widen(MaxCode(key), Pow(Prime, |key|), 0xFFFF, 852891037441);
    } else {
      PowMonotone(Prime, |key|, 10);
      Widen(MaxCode(key), Pow(Prime, |key|), 0x7F, 819628286980801);
    }
  }

  lemma Widen(m: nat, q: nat, m': nat, q': nat)
    requires m <= m' && 1 <= q <= q'
    ensures m * (q - 1) <= m' * (q' - 1)
  {
    assert m * (q - 1) <= m' * (q - 1);
  }

  lemma PowValues()
    ensures Pow(Prime, 8) == 852891037441
    ensures Pow(Prime, 10) == 819628286980801
  {
    assert Pow(Prime, 2) == 961;
    assert Pow(Prime, 4) == 923521 by { assert Pow(Prime, 3) == 29791; }
    assert Pow(Prime, 6) == 887503681 by { assert Pow(Prime, 5) == 28629151; }
    assert Pow(Prime, 8) == 852891037441 by { assert Pow(Prime, 7) == 27512614111; }
    assert Pow(Prime, 9) == 26439622160671;
  }

  lemma {:induction false} PowMonotone(b: nat, e: nat, e': nat)
    requires b > 0 && e <= e'
    ensures Pow(b, e) <= Pow(b, e')
    decreases e'
  {
    if e < e' {
      PowMonotone(b, e, e' - 1);
      assert Pow(b, e') == b * Pow(b, e' - 1);
    }
  }

  /** `hash` as the source computes it, with a loop over the characters. */
  method ComputeHash(key: Key) returns (h: nat)
    ensures h == Hash(key)
  {
    h := 0;
    var i := 0;
    while i < |key|
      invariant 0 <= i <= |key|
      invariant h == Hash(key[..i])
    {
      assert key[..i + 1][..i] == key[..i];
      h := Prime * h + key[i] as int;
      i := i + 1;
    }
    assert key[..i] == key;
  }

  function Pow(b: nat, e: nat): (r: nat)
    ensures b > 0 ==> r > 0
  {
    if e == 0 then 1 else b * Pow(b, e - 1)
  }

  /** The hash is a polynomial in 31: hashing a concatenation shifts the
      first part's hash by one factor of 31 per character of the second. */
  lemma {:induction false} HashConcat(a: Key, b: Key)
    ensures Hash(a + b) == Hash(a) * Pow(Prime, |b|) + Hash(b)
  {
    if b == [] {
      assert a + b == a;
    } else {
      var b' := b[..|b| - 1];
      var c := b[|b| - 1] as int;
      assert (a + b)[..|a + b| - 1] == a + b';
      assert Hash(a + b) == Prime * Hash(a + b') + c;
      assert Hash(b) == Prime * Hash(b') + c;
      assert Pow(Prime, |b|) == Prime * Pow(Prime, |b'|);
      HashConcat(a, b');
      ShiftByPrime(Hash(a), Pow(Prime, |b'|), Hash(b'), c);
    }
  }

  /** The algebra of one step of `HashConcat`. */
  lemma ShiftByPrime(h: int, p: int, t: int, c: int)
    ensures Prime * (h * p + t) + c == h * (Prime * p) + (Prime * t + c)
  {
  }

  /** `index`: the hash modulo the capacity. The hash is never negative, so
      the result always lies in `[0, _capacity)` and the source's
      out-of-bound `throw` cannot be reached. */
  function Index(key: Key, capacity: Capacity): (i: nat)
    ensures i < capacity
  {
    Hash(key) % capacity
  }

  // ---------------------------------------------------------------------
  // Bucket slots
  // ---------------------------------------------------------------------

  /** `_buckets[i]`; reading past the end gives `undefined`, which every
      caller treats like `null`. */
  function Slot(buckets: seq<Option<List>>, i: nat): Option<List>
  {
    if i < |buckets| then buckets[i] else None
  }

  /** `_buckets[i] = list`. Writing past the end of a JavaScript array
      extends it, leaving holes that read as `undefined`; that only happens
      after `clear(c)` with `c` below the capacity. */
  function Put(buckets: seq<Option<List>>, i: nat, b: List): (r: seq<Option<List>>)
    ensures |r| == if i < |buckets| then |buckets| else i + 1
    ensures Slot(r, i) == Some(b)
    ensures forall j: nat :: j != i ==> Slot(r, j) == Slot(buckets, j)
  {
    if i < |buckets| then buckets[i := Some(b)]
    else buckets + Nulls(i - |buckets|) + [Some(b)]
  }

  /** Every allocated bucket's counter is at most its node count (see
      `LinkedList.Linked`); it keeps the chain walks inside `set` off `null`. */
  ghost predicate ChainsLinked(m: Map)
  {
    forall i: nat :: Slot(m.buckets, i).Some? ==> Linked(Slot(m.buckets, i).value)
  }

  // ---------------------------------------------------------------------
  // Bulk accessors
  // ---------------------------------------------------------------------

  function SlotPairs(slot: Option<List>): seq<Pair>
  {
    match slot
    case None => []
    case Some(b) => GetEntries(b)
  }

  /** The non-null buckets' `getEntries`, concatenated in slot order. */
  function AllPairs(buckets: seq<Option<List>>): seq<Pair>
  {
    if buckets == [] then [] else SlotPairs(buckets[0]) + AllPairs(buckets[1..])
  }

  /** A pair is in the concatenation exactly when some slot's chain has the
      corresponding entry. */
  lemma {:induction false} AllPairsMembers(buckets: seq<Option<List>>, p: Pair)
    ensures p in AllPairs(buckets) <==>
              exists i: nat :: Slot(buckets, i).Some? && Entry(p.0, p.1) in Slot(buckets, i).value.entries
  {
    if buckets != [] {
      AllPairsMembers(buckets[1..], p);
      assert forall i: nat :: Slot(buckets[1..], i) == Slot(buckets, i + 1);
      if buckets[0].Some? {
        var es := buckets[0].value.entries;
        if p in SlotPairs(buckets[0]) {
          var j :| 0 <= j < |es| && SlotPairs(buckets[0])[j] == p;
          assert es[j] == Entry(p.0, p.1);
          assert Slot(buckets, 0).Some?;
        }
        if Entry(p.0, p.1) in es {
          var j :| 0 <= j < |es| && es[j] == Entry(p.0, p.1);
          assert SlotPairs(buckets[0])[j] == p;
        }
      }
      if exists i: nat :: Slot(buckets, i).Some? && Entry(p.0, p.1) in Slot(buckets, i).value.entries {
        var i: nat :| Slot(buckets, i).Some? && Entry(p.0, p.1) in Slot(buckets, i).value.entries;
        if i > 0 {
          assert Slot(buckets[1..], i - 1) == Slot(buckets, i);
        }
      }
    }
  }

  /** The non-null buckets' `getKeys`, concatenated in slot order. */
  function AllKeys(buckets: seq<Option<List>>): seq<Key>
  {
    if buckets == [] then []
    else (match buckets[0] case None => [] case Some(b) => GetKeys(b)) + AllKeys(buckets[1..])
  }

  /** The non-null buckets' `getValues`, concatenated in slot order. */
  function AllValues(buckets: seq<Option<List>>): seq<Value>
  {
    if buckets == [] then []
    else (match buckets[0] case None => [] case Some(b) => GetValues(b)) + AllValues(buckets[1..])
  }

  /** `entries`: `null` while `_length` is 0, else every node's pair. */
  function Entries(m: Map): (r: Option<seq<Pair>>)
    ensures r.Some? <==> m.length != 0
  {
    if m.length == 0 then None else Some(AllPairs(m.buckets))
  }

  /** `keys`: `null` while `_length` is 0. */
  function Keys(m: Map): (r: Option<seq<Key>>)
    ensures r.Some? <==> m.length != 0
  {
    if m.length == 0 then None else Some(AllKeys(m.buckets))
  }

  /** `values`: `null` while `_length` is 0. */
  function Values(m: Map): (r: Option<seq<Value>>)
    ensures r.Some? <==> m.length != 0
  {
    if m.length == 0 then None else Some(AllValues(m.buckets))
  }

  /** `length`. */
  function Length(m: Map): int
  {
    m.length
  }

  /** `clear(capacity)`: fresh `null` slots and a zero counter. The capacity
      field is left as it was, whatever slot count is asked for; the default
      argument is the current capacity. */
  function Clear(m: Map, count: nat): (r: Map)
    ensures r.capacity == m.capacity && r.length == 0 && |r.buckets| == count
    ensures forall i: nat :: Slot(r.buckets, i) == None
  {
    Map(Nulls(count), 0, m.capacity)
  }

  // ---------------------------------------------------------------------
  // Termination measure for set <-> growCapacity
  // ---------------------------------------------------------------------

  /** How far `n` pending entries are from letting a capacity grow: an
      insertion only triggers growth when `4 * _length >= 3 * _capacity`, so
      this is 0 once `4 * n < 3 * capacity`, and doubling the capacity lowers it. */
  function Headroom(capacity: Capacity, n: int): nat
  {
    if 4 * n < 3 * capacity then 0 else 4 * n - 3 * capacity + 1
  }

  /** The larger of the node count and `_length`: each `set` raises it by at
      most one, and a rebuild never raises it. */
  function Potential(m: Map): nat
  {
    var n := |AllPairs(m.buckets)|;
    if m.length <= n then n else m.length
  }

  lemma {:induction false} AllPairsConcat(a: seq<Option<List>>, c: seq<Option<List>>)
    ensures AllPairs(a + c) == AllPairs(a) + AllPairs(c)
  {
    if a == [] {
      assert a + c == c;
    } else {
      assert (a + c)[1..] == a[1..] + c;
      AllPairsConcat(a[1..], c);
    }
  }

  lemma {:induction false} AllPairsNulls(count: nat)
    ensures AllPairs(Nulls(count)) == []
  {
    if count > 0 {
      assert Nulls(count)[1..] == Nulls(count - 1);
      AllPairsNulls(count - 1);
    }
  }

  /** Rewriting a slot with a chain of the same nodes leaves the
      concatenated pairs as they were, whatever the counters say. */
  lemma PutSameNodes(buckets: seq<Option<List>>, i: nat, b: List)
    requires Slot(buckets, i).Some? && Slot(buckets, i).value.entries == b.entries
    ensures AllPairs(Put(buckets, i, b)) == AllPairs(buckets)
  {
    assert buckets == buckets[..i] + [buckets[i]] + buckets[i + 1..];
    assert Put(buckets, i, b) == buckets[..i] + [Some(b)] + buckets[i + 1..];
    AllPairsConcat(buckets[..i] + [buckets[i]], buckets[i + 1..]);
    AllPairsConcat(buckets[..i], [buckets[i]]);
    AllPairsConcat(buckets[..i] + [Some(b)], buckets[i + 1..]);
    AllPairsConcat(buckets[..i], [Some(b)]);
    assert AllPairs([buckets[i]]) == SlotPairs(buckets[i]);
    assert AllPairs([Some(b)]) == SlotPairs(Some(b));
  }

  /** Replacing one slot changes the node count by the difference in that
      slot's node count. */
  lemma PutCount(buckets: seq<Option<List>>, i: nat, b: List)
    ensures |AllPairs(Put(buckets, i, b))| + |SlotPairs(Slot(buckets, i))| == |AllPairs(buckets)| + |b.entries|
  {
    if i < |buckets| {
      assert buckets == buckets[..i] + [buckets[i]] + buckets[i + 1..];
      assert Put(buckets, i, b) == buckets[..i] + [Some(b)] + buckets[i + 1..];
      AllPairsConcat(buckets[..i] + [buckets[i]], buckets[i + 1..]);
      AllPairsConcat(buckets[..i], [buckets[i]]);
      AllPairsConcat(buckets[..i] + [Some(b)], buckets[i + 1..]);
      AllPairsConcat(buckets[..i], [Some(b)]);
      assert AllPairs([buckets[i]]) == SlotPairs(buckets[i]);
      assert AllPairs([Some(b)]) == SlotPairs(Some(b));
    } else {
      AllPairsConcat(buckets + Nulls(i - |buckets|), [Some(b)]);
      AllPairsConcat(buckets, Nulls(i - |buckets|));
      AllPairsNulls(i - |buckets|);
      assert AllPairs([Some(b)]) == SlotPairs(Some(b));
    }
  }

  // ---------------------------------------------------------------------
  // set, growCapacity
  // ---------------------------------------------------------------------

  /** The replace path of `set`: `findIndex`, then `removeAt` and `insertAt`
      at the position found. `containsKey` walks the nodes but `findIndex`
      trusts a zero counter, so on a chain whose counter reads 0 the position
      is `null` and only the counter moves. */
  function Overwrite(b: List, e: Entry): (r: List)
    requires ContainsKey(b, e.key)
    ensures Linked(b) ==> Linked(r)
    ensures |r.entries| <= |b.entries| + 1
    ensures LinkedList.Valid(b) ==>
              LinkedList.Valid(r) && r.entries == b.entries[FindIndex(b, e.key).value := e]
  {
    match FindIndex(b, e.key)
    case Some(j) =>
      var b' := RemoveAt(b, j);
      assert LinkedList.Valid(b) ==> b'.entries[..j] + [e] + b'.entries[j..] == b.entries[j := e];
      InsertAt(b', e, j)
    case None => InsertAtNull(RemoveAtNull(b), e)
  }

  /** `set`. A null slot gets a new chain holding the entry, and `_length`
      rises; no load check follows. A chain that holds the key has it
      replaced in place. Otherwise the entry is appended, `_length` rises,
      and the map grows if `_length >= _capacity * 0.75`, i.e.
      `4 * _length >= 3 * _capacity`. */
  function Set(m: Map, key: Key, value: Value): (r: Map)
    requires ChainsLinked(m)
    ensures ChainsLinked(r)
    ensures r.capacity >= m.capacity
    ensures Potential(r) <= Potential(m) + 1
    decreases Headroom(m.capacity, Potential(m) + 1), 1, 0
  {
    var i := Index(key, m.capacity);
    var e := Entry(key, value);
    match Slot(m.buckets, i)
    case None =>
      var b' := Append(LinkedList.Empty, e);
      PutCount(m.buckets, i, b');
      m.(buckets := Put(m.buckets, i, b'), length := m.length + 1)
    case Some(b) =>
      if ContainsKey(b, key) then
        var b' := Overwrite(b, e);
        PutCount(m.buckets, i, b');
        m.(buckets := Put(m.buckets, i, b'))
      else
        var b' := Append(b, e);
        PutCount(m.buckets, i, b');
        var m1 := m.(buckets := Put(m.buckets, i, b'), length := m.length + 1);
        if 4 * m1.length >= 3 * m1.capacity then
          Grow(m1)
        else
          m1
  }

  /** `growCapacity`: snapshot `entries()`; if it is not `null`, double the
      capacity, clear to that many null slots and `set` every snapshot pair
      in order. A rebuild's own `set` calls may grow the map again. */
  function Grow(m: Map): (r: Map)
    requires ChainsLinked(m)
    ensures ChainsLinked(r)
    ensures r.capacity >= m.capacity
    ensures m.length != 0 ==> r.capacity >= 2 * m.capacity
    ensures Potential(r) <= Potential(m)
    decreases 1 + Headroom(2 * m.capacity, Potential(m)), 0, 0
  {
    match Entries(m)
    case None => m
    case Some(snapshot) =>
      var cleared := Clear(m.(capacity := 2 * m.capacity), 2 * m.capacity);
      AllPairsNulls(2 * m.capacity);
      SetAll(cleared, snapshot)
  }

  /** The rebuild loop `entries.forEach((entry) => this.set(entry[0], entry[1]))`. */
  function SetAll(m: Map, pairs: seq<Pair>): (r: Map)
    requires ChainsLinked(m)
    ensures ChainsLinked(r)
    ensures r.capacity >= m.capacity
    ensures Potential(r) <= Potential(m) + |pairs|
    decreases Headroom(m.capacity, Potential(m) + |pairs|), 2, |pairs|
  {
    if pairs == [] then m
    else
      var rest := pairs[1..];
      var m1 := Set(m, pairs[0].0, pairs[0].1);
      var r := SetAll(m1, rest);
      assert Potential(r) <= Potential(m1) + |rest|;
      r
  }

  // ---------------------------------------------------------------------
  // get, has, remove
  // ---------------------------------------------------------------------

  /** The entry for `key` with value `value` sits in the slot `key` indexes to. */
  predicate Stored(m: Map, key: Key, value: Value)
  {
    match Slot(m.buckets, Index(key, m.capacity))
    case None => false
    case Some(b) => Entry(key, value) in b.entries
  }

  /** The chain part of `get`: `findIndex`, then `at`, then the node's value. */
  function BucketGet(b: List, key: Key): (r: Option<Value>)
    ensures r.Some? ==> Entry(key, r.value) in b.entries
  {
    match FindIndex(b, key)
    case None => None
    case Some(j) =>
      match At(b, j)
      case None => None
      case Some(e) => Some(e.value)
  }

  /** `get`: `null` for a null slot or a key its chain lacks. */
  function Get(m: Map, key: Key): (r: Option<Value>)
    ensures r.Some? ==> Stored(m, key, r.value)
  {
    match Slot(m.buckets, Index(key, m.capacity))
    case None => None
    case Some(b) => BucketGet(b, key)
  }

  /** `has`: the key's slot holds a chain with a node for the key. */
  function Has(m: Map, key: Key): (r: bool)
    ensures r <==> exists v :: Stored(m, key, v)
  {
    match Slot(m.buckets, Index(key, m.capacity))
    case None => false
    case Some(b) =>
      var r := ContainsKey(b, key);
      assert r ==> Stored(m, key, b.entries[FirstKeyIndex(b.entries, key).value].value);
      r
  }

  /** `remove`: nothing for a null slot; otherwise `removeAt(findIndex(key))`
      and `_length--`, whether or not the key was there. */
  function Remove(m: Map, key: Key): (r: Map)
    ensures r.capacity == m.capacity
    ensures ChainsLinked(m) ==> ChainsLinked(r)
    ensures Slot(m.buckets, Index(key, m.capacity)).None? ==> r == m
    ensures Slot(m.buckets, Index(key, m.capacity)).Some? ==> r.length == m.length - 1
  {
    var i := Index(key, m.capacity);
    match Slot(m.buckets, i)
    case None => m
    case Some(b) =>
      var b' := match FindIndex(b, key) case Some(j) => RemoveAt(b, j) case None => RemoveAtNull(b);
      m.(buckets := Put(m.buckets, i, b'), length := m.length - 1)
  }

  /** `remove` with the decrement guarded: a key whose chain has no node for
      it leaves the map as it was; otherwise the node is unlinked and
      `_length` drops. */
  function RemoveGuarded(m: Map, key: Key): (r: Map)
    ensures r.capacity == m.capacity
    ensures ChainsLinked(m) ==> ChainsLinked(r)
  {
    var i := Index(key, m.capacity);
    match Slot(m.buckets, i)
    case None => m
    case Some(b) =>
      match FindIndex(b, key)
      case None => m
      case Some(j) => m.(buckets := Put(m.buckets, i, RemoveAt(b, j)), length := m.length - 1)
  }

}

=== FILE: hash_map_facts.dfy ===
/** What the hash map guarantees: the representation invariant every
    sequence of `set`, `clear` and successful `remove` calls keeps, and what
    `get`, `has`, `set`, `growCapacity`, `remove`, `clear` and the bulk
    accessors mean under it. */
module HashMapFacts {

  import opened Wrappers
  import opened JsValue
  import opened LinkedList
  import opened HashMap

  // ---------------------------------------------------------------------
  // The invariant
  // ---------------------------------------------------------------------

  /** Slot `i` of a map whose capacity is `capacity` may hold `b`: its
      counter is right, its keys are distinct and every key indexes to `i`. */
  predicate GoodBucket(b: List, i: nat, capacity: Capacity)
  {
    && LinkedList.Valid(b)
    && (forall j :: 0 <= j < |b.entries| ==> Index(b.entries[j].key, capacity) == i)
    && (forall j, j' :: 0 <= j < j' < |b.entries| ==> b.entries[j].key != b.entries[j'].key)
  }

  /** Every chain sits in its keys' slot with distinct keys and a correct
      counter, and `_length` counts the stored entries. */
  ghost predicate Sound(m: Map)
  {
    && (forall i: nat :: Slot(m.buckets, i).Some? ==> GoodBucket(Slot(m.buckets, i).value, i, m.capacity))
    && m.length == |AllPairs(m.buckets)|
  }

  /** No key occurs twice. */
  predicate DistinctKeys(pairs: seq<Pair>)
  {
    forall p, q :: 0 <= p < q < |pairs| ==> pairs[p].0 != pairs[q].0
  }

  // ---------------------------------------------------------------------
  // Lookups
  // ---------------------------------------------------------------------

  /** In a good chain, `get`'s walk yields `value` exactly when the chain
      holds the entry. */
  lemma BucketGetGood(b: List, i: nat, capacity: Capacity, key: Key)
    requires GoodBucket(b, i, capacity)
    ensures forall v :: BucketGet(b, key) == Some(v) <==> Entry(key, v) in b.entries
  {
    forall v | Entry(key, v) in b.entries
      ensures BucketGet(b, key) == Some(v)
    {
      var p :| 0 <= p < |b.entries| && b.entries[p] == Entry(key, v);
      var j := FindIndex(b, key).value;
      assert j == p;
    }
  }

  /** Under the invariant `get` returns `value` exactly when the key's slot
      holds the entry. */
  lemma GetSound(m: Map, key: Key)
    requires Sound(m)
    ensures forall v :: Get(m, key) == Some(v) <==> Stored(m, key, v)
  {
    var i := Index(key, m.capacity);
    if Slot(m.buckets, i).Some? {
      BucketGetGood(Slot(m.buckets, i).value, i, m.capacity, key);
    }
  }

  /** Under the invariant `has` agrees with `get`. */
  lemma HasIffGet(m: Map, key: Key)
    requires Sound(m)
    ensures Has(m, key) <==> Get(m, key).Some?
  {
    GetSound(m, key);
    if Has(m, key) {
      var v :| Stored(m, key, v);
      assert Get(m, key) == Some(v);
    }
  }

  /** Replacing one slot's chain leaves every other key's lookup alone. */
  lemma GetAfterPut(m: Map, i: nat, b: List, length: int, key: Key)
    ensures Get(m.(buckets := Put(m.buckets, i, b), length := length), key) ==
              if Index(key, m.capacity) == i then BucketGet(b, key) else Get(m, key)
  {
  }

  /** Replacing one slot with a good chain keeps the invariant when `_length`
      moves by the change in that slot's node count. */
  lemma PutSound(m: Map, i: nat, b: List, length: int)
    requires Sound(m)
    requires GoodBucket(b, i, m.capacity)
    requires length + |SlotPairs(Slot(m.buckets, i))| == m.length + |b.entries|
    ensures Sound(m.(buckets := Put(m.buckets, i, b), length := length))
  {
    PutCount(m.buckets, i, b);
  }

  // ---------------------------------------------------------------------
  // Replaying pairs
  // ---------------------------------------------------------------------

  /** The value a left-to-right run of `set(pair.0, pair.1)` leaves for
      `key`, given the value it had before. */
  function Latest(pairs: seq<Pair>, key: Key, before: Option<Value>): Option<Value>
  {
    if pairs == [] then before
    else Latest(pairs[1..], key, if pairs[0].0 == key then Some(pairs[0].1) else before)
  }

  lemma {:induction false} LatestConcat(a: seq<Pair>, c: seq<Pair>, key: Key, before: Option<Value>)
    ensures Latest(a + c, key, before) == Latest(c, key, Latest(a, key, before))
  {
    if a == [] {
      assert a + c == c;
    } else {
      assert (a + c)[1..] == a[1..] + c;
      LatestConcat(a[1..], c, key, if a[0].0 == key then Some(a[0].1) else before);
    }
  }

  lemma {:induction false} LatestMissing(pairs: seq<Pair>, key: Key, before: Option<Value>)
    requires forall j :: 0 <= j < |pairs| ==> pairs[j].0 != key
    ensures Latest(pairs, key, before) == before
  {
    if pairs != [] {
      LatestMissing(pairs[1..], key, before);
    }
  }

  lemma {:induction false} LatestDistinct(pairs: seq<Pair>, key: Key, before: Option<Value>, j: nat)
    requires DistinctKeys(pairs)
    requires j < |pairs| && pairs[j].0 == key
    ensures Latest(pairs, key, before) == Some(pairs[j].1)
  {
    if j == 0 {
      LatestMissing(pairs[1..], key, Some(pairs[0].1));
    } else {
      assert pairs[0].0 != key;
      LatestDistinct(pairs[1..], key, before, j - 1);
    }
  }

  /** Replaying one good chain's pairs reproduces `get`'s walk on it. */
  lemma LatestBucket(b: List, i: nat, capacity: Capacity, key: Key)
    requires GoodBucket(b, i, capacity)
    ensures Latest(GetEntries(b), key, None) == BucketGet(b, key)
  {
    var ps := GetEntries(b);
    BucketGetGood(b, i, capacity, key);
    if j :| 0 <= j < |ps| && ps[j].0 == key {
      LatestDistinct(ps, key, None, j);
      assert b.entries[j] == Entry(key, ps[j].1);
    } else {
      LatestMissing(ps, key, None);
    }
  }

  lemma AllPairsSnoc(buckets: seq<Option<List>>, n: nat)
    requires n < |buckets|
    ensures AllPairs(buckets[..n + 1]) == AllPairs(buckets[..n]) + SlotPairs(buckets[n])
  {
    assert buckets[..n + 1] == buckets[..n] + [buckets[n]];
    AllPairsConcat(buckets[..n], [buckets[n]]);
    assert AllPairs([buckets[n]]) == SlotPairs(buckets[n]) + AllPairs([]);
  }

  /** Every pair in the first `n` slots belongs to a key indexing below `n`. */
  lemma PrefixIndices(m: Map, n: nat, p: Pair)
    requires Sound(m) && n <= |m.buckets|
    requires p in AllPairs(m.buckets[..n])
    ensures Index(p.0, m.capacity) < n
  {
    AllPairsMembers(m.buckets[..n], p);
    var i: nat :| Slot(m.buckets[..n], i).Some? && Entry(p.0, p.1) in Slot(m.buckets[..n], i).value.entries;
    assert Slot(m.buckets[..n], i) == Slot(m.buckets, i);
    var es := Slot(m.buckets, i).value.entries;
    var j :| 0 <= j < |es| && es[j] == Entry(p.0, p.1);
  }

  lemma {:induction false} SnapshotPrefix(m: Map, n: nat, key: Key)
    requires Sound(m) && n <= |m.buckets|
    ensures DistinctKeys(AllPairs(m.buckets[..n]))
    ensures Latest(AllPairs(m.buckets[..n]), key, None) ==
              if Index(key, m.capacity) < n then Get(m, key) else None
  {
    if n == 0 {
      assert m.buckets[..0] == [];
    } else {
      var k := n - 1;
      SnapshotPrefix(m, k, key);
      AllPairsSnoc(m.buckets, k);
      var a := AllPairs(m.buckets[..k]);
      var c := SlotPairs(m.buckets[k]);
      LatestConcat(a, c, key, None);
      assert Slot(m.buckets, k) == m.buckets[k];
      match m.buckets[k]
      case None =>
        assert a + c == a;
      case Some(b) =>
        assert GoodBucket(b, k, m.capacity);
        forall j | 0 <= j < |c|
          ensures Index(c[j].0, m.capacity) == k
        {
          assert c[j].0 == b.entries[j].key;
        }
        // distinct keys across the two parts
        forall p, q | 0 <= p < q < |a + c|
          ensures (a + c)[p].0 != (a + c)[q].0
        {
          if q < |a| {
          } else if p >= |a| {
            assert c[p - |a|].0 == b.entries[p - |a|].key;
            assert c[q - |a|].0 == b.entries[q - |a|].key;
          } else {
            PrefixIndices(m, k, a[p]);
          }
        }
        if Index(key, m.capacity) == k {
          LatestBucket(b, k, m.capacity, key);
        } else {
          LatestMissing(c, key, Latest(a, key, None));
        }
    }
  }

  /** The snapshot `growCapacity` takes has distinct keys, and replaying it
      from nothing gives back every lookup. */
  lemma Snapshot(m: Map)
    requires Sound(m)
    ensures DistinctKeys(AllPairs(m.buckets))
    ensures forall key :: Latest(AllPairs(m.buckets), key, None) == Get(m, key)
  {
    assert m.buckets[..|m.buckets|] == m.buckets;
    SnapshotPrefix(m, |m.buckets|, "");
    forall key
      ensures Latest(AllPairs(m.buckets), key, None) == Get(m, key)
    {
      SnapshotPrefix(m, |m.buckets|, key);
    }
  }

  lemma ClearSound(m: Map, count: nat)
    ensures Sound(Clear(m, count))
    ensures forall key :: Get(Clear(m, count), key) == None
  {
    AllPairsNulls(count);
  }

  // ---------------------------------------------------------------------
  // set, growCapacity and the rebuild loop
  // ---------------------------------------------------------------------

  /** `m'` answers `value` for `key` and what `m` answers for every other key. */
  ghost predicate Assigns(m: Map, m': Map, key: Key, value: Value)
  {
    forall k :: Get(m', k) == if k == key then Some(value) else Get(m, k)
  }

  /** The null-slot path of `set`. */
  lemma NewChainSound(m: Map, key: Key, value: Value)
    requires Sound(m) && Slot(m.buckets, Index(key, m.capacity)).None?
    ensures var i := Index(key, m.capacity);
            var m' := m.(buckets := Put(m.buckets, i, Append(LinkedList.Empty, Entry(key, value))), length := m.length + 1);
            Sound(m') && Assigns(m, m', key, value) && Get(m, key).None?
  {
    var i := Index(key, m.capacity);
    var b' := Append(LinkedList.Empty, Entry(key, value));
    assert GoodBucket(b', i, m.capacity);
    PutSound(m, i, b', m.length + 1);
    forall k ensures Get(m.(buckets := Put(m.buckets, i, b'), length := m.length + 1), k) ==
                       if k == key then Some(value) else Get(m, k) {
      GetAfterPut(m, i, b', m.length + 1, k);
      BucketGetGood(b', i, m.capacity, k);
    }
  }

  /** Replacing one entry's value keeps a chain good. */
  lemma OverwriteGood(b: List, i: nat, capacity: Capacity, e: Entry)
    requires GoodBucket(b, i, capacity) && Index(e.key, capacity) == i && ContainsKey(b, e.key)
    ensures Overwrite(b, e).entries == b.entries[FindIndex(b, e.key).value := e]
    ensures GoodBucket(Overwrite(b, e), i, capacity)
  {
    var b' := Overwrite(b, e);
    var j := FindIndex(b, e.key).value;
    assert forall x :: 0 <= x < |b.entries| ==> b'.entries[x].key == b.entries[x].key;
  }

  /** Replacing one entry's value changes only that key's lookup. */
  lemma OverwriteGet(b: List, i: nat, capacity: Capacity, e: Entry, k: Key)
    requires GoodBucket(b, i, capacity) && Index(e.key, capacity) == i && ContainsKey(b, e.key)
    ensures BucketGet(Overwrite(b, e), k) == if k == e.key then Some(e.value) else BucketGet(b, k)
  {
    OverwriteGood(b, i, capacity, e);
    var b' := Overwrite(b, e);
    var j := FindIndex(b, e.key).value;
    BucketGetGood(b', i, capacity, k);
    BucketGetGood(b, i, capacity, k);
    if k != e.key {
      forall v ensures Entry(k, v) in b'.entries <==> Entry(k, v) in b.entries {
        if Entry(k, v) in b.entries {
          var x :| 0 <= x < |b.entries| && b.entries[x] == Entry(k, v);
          assert b'.entries[x] == Entry(k, v);
        }
        if Entry(k, v) in b'.entries {
          var x :| 0 <= x < |b'.entries| && b'.entries[x] == Entry(k, v);
          assert b.entries[x] == Entry(k, v);
        }
      }
    } else {
      assert b'.entries[j] == e;
    }
  }

  /** The replace path of `set`. */
  lemma ReplaceSound(m: Map, key: Key, value: Value)
    requires Sound(m)
    requires var s := Slot(m.buckets, Index(key, m.capacity)); s.Some? && ContainsKey(s.value, key)
    ensures var i := Index(key, m.capacity);
            var m' := m.(buckets := Put(m.buckets, i, Overwrite(Slot(m.buckets, i).value, Entry(key, value))));
            Sound(m') && Assigns(m, m', key, value) && Get(m, key).Some?
  {
    var i := Index(key, m.capacity);
    var b := Slot(m.buckets, i).value;
    var b' := Overwrite(b, Entry(key, value));
    assert GoodBucket(b, i, m.capacity);
    OverwriteGood(b, i, m.capacity, Entry(key, value));
    PutSound(m, i, b', m.length);
    BucketGetGood(b, i, m.capacity, key);
    var j := FindIndex(b, key).value;
    assert Get(m, key) == Some(b.entries[j].value);
    forall k ensures Get(m.(buckets := Put(m.buckets, i, b')), k) == if k == key then Some(value) else Get(m, k) {
      GetAfterPut(m, i, b', m.length, k);
      if Index(k, m.capacity) == i {
        OverwriteGet(b, i, m.capacity, Entry(key, value), k);
      }
    }
  }

  /** The append path of `set`, before the load check. */
  lemma AppendSound(m: Map, key: Key, value: Value)
    requires Sound(m)
    requires var s := Slot(m.buckets, Index(key, m.capacity)); s.Some? && !ContainsKey(s.value, key)
    ensures var i := Index(key, m.capacity);
            var m' := m.(buckets := Put(m.buckets, i, Append(Slot(m.buckets, i).value, Entry(key, value))), length := m.length + 1);
            Sound(m') && Assigns(m, m', key, value) && Get(m, key).None?
  {
    var i := Index(key, m.capacity);
    var b := Slot(m.buckets, i).value;
    var b' := Append(b, Entry(key, value));
    assert GoodBucket(b, i, m.capacity);
    assert GoodBucket(b', i, m.capacity);
    PutSound(m, i, b', m.length + 1);
    BucketGetGood(b, i, m.capacity, key);
    forall k ensures Get(m.(buckets := Put(m.buckets, i, b'), length := m.length + 1), k) ==
                       if k == key then Some(value) else Get(m, k) {
      GetAfterPut(m, i, b', m.length + 1, k);
      BucketGetGood(b', i, m.capacity, k);
      BucketGetGood(b, i, m.capacity, k);
    }
  }

  /** `set` keeps the invariant, makes `get(key)` return `value`, leaves
      every other key's lookup alone, and raises `_length` exactly when the
      key was absent. */
  lemma SetSound(m: Map, key: Key, value: Value)
    requires Sound(m)
    ensures Sound(Set(m, key, value))
    ensures Assigns(m, Set(m, key, value), key, value)
    ensures Set(m, key, value).length == if Get(m, key).Some? then m.length else m.length + 1
    decreases Headroom(m.capacity, Potential(m) + 1), 1, 0
  {
    var i := Index(key, m.capacity);
    var e := Entry(key, value);
    match Slot(m.buckets, i)
    case None =>
      NewChainSound(m, key, value);
    case Some(b) =>
      if ContainsKey(b, key) {
        ReplaceSound(m, key, value);
      } else {
        AppendSound(m, key, value);
        var b' := Append(b, e);
        var m1 := m.(buckets := Put(m.buckets, i, b'), length := m.length + 1);
        if 4 * m1.length >= 3 * m1.capacity {
          PutCount(m.buckets, i, b');
          assert Potential(m1) <= Potential(m) + 1;
          assert Set(m, key, value) == Grow(m1);
          GrowSound(m1);
        } else {
          assert Set(m, key, value) == m1;
        }
      }
  }

  /** `growCapacity` keeps the invariant, every lookup and `_length`. */
  lemma GrowSound(m: Map)
    requires Sound(m)
    ensures Sound(Grow(m))
    ensures forall k :: Get(Grow(m), k) == Get(m, k)
    ensures Grow(m).length == m.length
    decreases 1 + Headroom(2 * m.capacity, Potential(m)), 0, 0
  {
    if m.length != 0 {
      var snapshot := AllPairs(m.buckets);
      var cleared := Clear(m.(capacity := 2 * m.capacity), 2 * m.capacity);
      ClearSound(m.(capacity := 2 * m.capacity), 2 * m.capacity);
      AllPairsNulls(2 * m.capacity);
      Snapshot(m);
      assert Grow(m) == SetAll(cleared, snapshot);
      SetAllSound(cleared, snapshot);
    }
  }

  /** The rebuild loop keeps the invariant and leaves, for every key, the
      value the last pair for it carries; replaying pairs with distinct,
      absent keys adds one to `_length` per pair. */
  lemma SetAllSound(m: Map, pairs: seq<Pair>)
    requires Sound(m)
    ensures Sound(SetAll(m, pairs))
    ensures forall k :: Get(SetAll(m, pairs), k) == Latest(pairs, k, Get(m, k))
    ensures DistinctKeys(pairs) && (forall j :: 0 <= j < |pairs| ==> Get(m, pairs[j].0) == None) ==>
              SetAll(m, pairs).length == m.length + |pairs|
    decreases Headroom(m.capacity, Potential(m) + |pairs|), 2, |pairs|
  {
    if pairs != [] {
      var k0, v0, rest := pairs[0].0, pairs[0].1, pairs[1..];
      var m1 := Set(m, k0, v0);
      SetSound(m, k0, v0);
      SetAllSound(m1, rest);
      var r := SetAll(m1, rest);
      assert SetAll(m, pairs) == r;
      forall k ensures Get(r, k) == Latest(pairs, k, Get(m, k)) {
        assert Get(m1, k) == if k == k0 then Some(v0) else Get(m, k);
      }
      if DistinctKeys(pairs) && (forall j :: 0 <= j < |pairs| ==> Get(m, pairs[j].0) == None) {
        assert Get(m, k0) == None;
        forall j | 0 <= j < |rest| ensures Get(m1, rest[j].0) == None {
          assert rest[j] == pairs[j + 1];
        }
      }
    }
  }

  // ---------------------------------------------------------------------
  // Sequences of set calls, the replace path, and when growth happens
  // ---------------------------------------------------------------------

  /** A new map is sound and empty. */
  lemma NewSound()
    ensures Sound(New())
    ensures forall k :: Get(New(), k) == None && !Has(New(), k)
  {
    AllPairsNulls(InitialCapacity);
  }

  /** Any run of `set` calls from a new map keeps the invariant, leaves each
      key with the last value set for it, and with distinct keys counts
      every call. */
  lemma SetSequence(pairs: seq<Pair>)
    ensures Sound(SetAll(New(), pairs))
    ensures forall k :: Get(SetAll(New(), pairs), k) == Latest(pairs, k, None)
    ensures DistinctKeys(pairs) ==> Length(SetAll(New(), pairs)) == |pairs|
  {
    NewSound();
    SetAllSound(New(), pairs);
  }

  /** Setting a key twice: the second value wins and `_length` is what it
      was before the first `set` plus one only if the key was new. */
  lemma SetTwice(m: Map, key: Key, v1: Value, v2: Value)
    requires Sound(m)
    ensures var r := Set(Set(m, key, v1), key, v2);
            Sound(r) && Get(r, key) == Some(v2) &&
            r.length == if Get(m, key).Some? then m.length else m.length + 1
  {
    SetSound(m, key, v1);
    SetSound(Set(m, key, v1), key, v2);
  }

  /** On a key already present, `set` rewrites the value of its node in
      place: same position in the same chain, same counter, no growth. */
  lemma SetReplacesInPlace(m: Map, key: Key, value: Value)
    requires Sound(m) && Get(m, key).Some?
    ensures var i := Index(key, m.capacity);
            var b := Slot(m.buckets, i).value;
            var j := FindIndex(b, key).value;
            Set(m, key, value) == m.(buckets := Put(m.buckets, i, List(b.entries[j := Entry(key, value)], b.size)))
  {
    var i := Index(key, m.capacity);
    var b := Slot(m.buckets, i).value;
    assert GoodBucket(b, i, m.capacity);
    assert ContainsKey(b, key);
    OverwriteGood(b, i, m.capacity, Entry(key, value));
  }

  /** `set` grows the map exactly when it appends to an existing chain and
      the raised `_length` reaches three quarters of the capacity; a new
      chain in a null slot never triggers the load check. Growth at least
      doubles the capacity. */
  lemma SetGrowsWhen(m: Map, key: Key, value: Value)
    requires ChainsLinked(m)
    ensures var s := Slot(m.buckets, Index(key, m.capacity));
            var grows := s.Some? && !ContainsKey(s.value, key) && 4 * (m.length + 1) >= 3 * m.capacity;
            && (Set(m, key, value).capacity != m.capacity <==> grows)
            && (grows ==> Set(m, key, value).capacity >= 2 * m.capacity)
  {
  }

  // ---------------------------------------------------------------------
  // remove
  // ---------------------------------------------------------------------

  /** Unlinking the node at `findIndex(key)` keeps a chain good. */
  lemma RemoveAtGood(b: List, i: nat, capacity: Capacity, key: Key)
    requires GoodBucket(b, i, capacity) && FindIndex(b, key).Some?
    ensures var j := FindIndex(b, key).value;
            RemoveAt(b, j).entries == b.entries[..j] + b.entries[j + 1..]
    ensures GoodBucket(RemoveAt(b, FindIndex(b, key).value), i, capacity)
  {
    var j := FindIndex(b, key).value;
    var b' := RemoveAt(b, j);
    assert forall x :: 0 <= x < |b'.entries| ==> b'.entries[x] == if x < j then b.entries[x] else b.entries[x + 1];
  }

  /** Every other key's entry survives unlinking the node at `findIndex(key)`. */
  lemma RemoveAtKeeps(b: List, i: nat, capacity: Capacity, key: Key, k: Key, v: Value)
    requires GoodBucket(b, i, capacity) && FindIndex(b, key).Some?
    requires Entry(k, v) in b.entries && k != key
    ensures Entry(k, v) in RemoveAt(b, FindIndex(b, key).value).entries
  {
    var j := FindIndex(b, key).value;
    var b' := RemoveAt(b, j);
    RemoveAtGood(b, i, capacity, key);
    var x :| 0 <= x < |b.entries| && b.entries[x] == Entry(k, v);
    if x < j {
      assert b'.entries[x] == Entry(k, v);
    } else {
      assert x != j;
      assert b'.entries[x - 1] == Entry(k, v);
    }
  }

  /** Unlinking the node at `findIndex(key)` adds nothing and drops that key. */
  lemma RemoveAtDrops(b: List, i: nat, capacity: Capacity, key: Key, k: Key, v: Value)
    requires GoodBucket(b, i, capacity) && FindIndex(b, key).Some?
    requires Entry(k, v) in RemoveAt(b, FindIndex(b, key).value).entries
    ensures Entry(k, v) in b.entries && k != key
  {
    var j := FindIndex(b, key).value;
    var b' := RemoveAt(b, j);
    RemoveAtGood(b, i, capacity, key);
    var x :| 0 <= x < |b'.entries| && b'.entries[x] == Entry(k, v);
    if x < j {
      assert b.entries[x] == Entry(k, v);
    } else {
      assert b.entries[x + 1] == Entry(k, v);
    }
  }

  /** Unlinking the node at `findIndex(key)` hides that key and no other. */
  lemma RemoveAtGet(b: List, i: nat, capacity: Capacity, key: Key, k: Key)
    requires GoodBucket(b, i, capacity) && FindIndex(b, key).Some?
    ensures BucketGet(RemoveAt(b, FindIndex(b, key).value), k) == if k == key then None else BucketGet(b, k)
  {
    var j := FindIndex(b, key).value;
    var b' := RemoveAt(b, j);
    RemoveAtGood(b, i, capacity, key);
    BucketGetGood(b', i, capacity, k);
    BucketGetGood(b, i, capacity, k);
    forall v ensures Entry(k, v) in b'.entries <==> Entry(k, v) in b.entries && k != key {
      if Entry(k, v) in b.entries && k != key {
        RemoveAtKeeps(b, i, capacity, key, k, v);
      }
      if Entry(k, v) in b'.entries {
        RemoveAtDrops(b, i, capacity, key, k, v);
      }
    }
  }

  /** The guarded `remove` keeps the invariant, makes the key absent,
      leaves every other lookup alone, and lowers `_length` exactly when the
      key was present. */
  lemma RemoveGuardedSound(m: Map, key: Key)
    requires Sound(m)
    ensures Sound(RemoveGuarded(m, key))
    ensures Get(RemoveGuarded(m, key), key) == None && !Has(RemoveGuarded(m, key), key)
    ensures forall k :: k != key ==> Get(RemoveGuarded(m, key), k) == Get(m, k)
    ensures RemoveGuarded(m, key).length == if Get(m, key).Some? then m.length - 1 else m.length
  {
    var i := Index(key, m.capacity);
    var r := RemoveGuarded(m, key);
    match Slot(m.buckets, i) {
      case None =>
      case Some(b) =>
        assert GoodBucket(b, i, m.capacity);
        BucketGetGood(b, i, m.capacity, key);
        match FindIndex(b, key) {
          case None =>
            assert Get(m, key) == None;
          case Some(j) =>
            var b' := RemoveAt(b, j);
            RemoveAtGood(b, i, m.capacity, key);
            PutSound(m, i, b', m.length - 1);
            assert Get(m, key) == Some(b.entries[j].value);
            forall k ensures Get(r, k) == if k == key then None else Get(m, k) {
              GetAfterPut(m, i, b', m.length - 1, k);
              if Index(k, m.capacity) == i {
                RemoveAtGet(b, i, m.capacity, key, k);
              }
            }
        }
    }
    HasIffGet(r, key);
  }

  /** On a present key, `remove` as written does what the guarded version does. */
  lemma RemovePresent(m: Map, key: Key)
    requires Sound(m) && Get(m, key).Some?
    ensures Remove(m, key) == RemoveGuarded(m, key)
  {
  }

  /** Even as written, `remove` leaves its key absent. */
  lemma RemoveThenAbsent(m: Map, key: Key)
    requires Sound(m)
    ensures Get(Remove(m, key), key) == None && !Has(Remove(m, key), key)
  {
    if Get(m, key).Some? {
      RemoveGuardedSound(m, key);
    } else {
      var i := Index(key, m.capacity);
      if Slot(m.buckets, i).Some? {
        var b := Slot(m.buckets, i).value;
        BucketGetGood(b, i, m.capacity, key);
        assert GoodBucket(b, i, m.capacity);
        assert !ContainsKey(b, key);
      }
    }
  }

  /** `remove` as written, on an absent key whose slot holds a chain, unlinks
      nothing yet still lowers `_length`, which breaks the invariant. */
  lemma RemoveAbsentDesyncs(m: Map, key: Key)
    requires Sound(m) && Get(m, key).None? && Slot(m.buckets, Index(key, m.capacity)).Some?
    ensures AllPairs(Remove(m, key).buckets) == AllPairs(m.buckets)
    ensures Remove(m, key).length == m.length - 1
    ensures !Sound(Remove(m, key))
  {
    var i := Index(key, m.capacity);
    var b := Slot(m.buckets, i).value;
    var r := Remove(m, key);
    assert GoodBucket(b, i, m.capacity);
    BucketGetGood(b, i, m.capacity, key);
    assert FindIndex(b, key).None?;
    var b' := RemoveAtNull(b);
    assert r == m.(buckets := Put(m.buckets, i, b'), length := m.length - 1);
    PutSameNodes(m.buckets, i, b');
    if b.size == 0 {
      PutCount(m.buckets, i, b');
      assert |AllPairs(r.buckets)| == |AllPairs(m.buckets)|;
    } else {
      assert Slot(r.buckets, i) == Some(b');
      assert !GoodBucket(b', i, m.capacity);
    }
  }

  // ---------------------------------------------------------------------
  // clear and the bulk accessors
  // ---------------------------------------------------------------------

  /** After `clear`, whatever the slot count, the map is sound, every lookup
      misses and the bulk accessors report "absent". */
  lemma ClearEmpties(m: Map, count: nat)
    ensures var r := Clear(m, count);
            && Sound(r) && Length(r) == 0
            && (forall k :: Get(r, k) == None && !Has(r, k))
            && Keys(r) == None && Values(r) == None && Entries(r) == None
  {
    ClearSound(m, count);
  }

  /** Under the invariant, the stored pairs are exactly the pairs `get`
      answers, each key once. */
  lemma PairsMeanGet(m: Map)
    requires Sound(m)
    ensures DistinctKeys(AllPairs(m.buckets))
    ensures forall p: Pair :: p in AllPairs(m.buckets) <==> Get(m, p.0) == Some(p.1)
  {
    Snapshot(m);
    forall p: Pair
      ensures p in AllPairs(m.buckets) <==> Get(m, p.0) == Some(p.1)
    {
      AllPairsMembers(m.buckets, p);
      GetSound(m, p.0);
      if p in AllPairs(m.buckets) {
        var i: nat :| Slot(m.buckets, i).Some? && Entry(p.0, p.1) in Slot(m.buckets, i).value.entries;
        var es := Slot(m.buckets, i).value.entries;
        var j :| 0 <= j < |es| && es[j] == Entry(p.0, p.1);
        assert GoodBucket(Slot(m.buckets, i).value, i, m.capacity);
      }
    }
  }

  /** Under the invariant, `entries` lists exactly the pairs `get` answers,
      each key once, and as many as `length` reports. */
  lemma EntriesMeanGet(m: Map)
    requires Sound(m) && m.length != 0
    ensures var ps := Entries(m).value;
            && |ps| == Length(m)
            && DistinctKeys(ps)
            && forall p: Pair :: p in ps <==> Get(m, p.0) == Some(p.1)
  {
    PairsMeanGet(m);
  }

  /** The keys of a run of pairs, as a set. */
  function KeySet(ps: seq<Pair>): set<Key>
  {
    set p | p in ps :: p.0
  }

  lemma {:induction false} DistinctKeySet(ps: seq<Pair>)
    requires DistinctKeys(ps)
    ensures |KeySet(ps)| == |ps|
  {
    if ps != [] {
      DistinctKeySet(ps[1..]);
      KeySetCons(ps);
    }
  }

  /** The first pair's key joins the rest's keys, which lack it. */
  lemma KeySetCons(ps: seq<Pair>)
    requires ps != [] && DistinctKeys(ps)
    ensures DistinctKeys(ps[1..])
    ensures ps[0].0 !in KeySet(ps[1..])
    ensures KeySet(ps) == {ps[0].0} + KeySet(ps[1..])
  {
    var rest := ps[1..];
    forall p | p in rest
      ensures p.0 != ps[0].0
    {
      var j :| 0 <= j < |rest| && rest[j] == p;
      assert ps[j + 1] == p;
    }
    assert ps == [ps[0]] + rest;
  }

  /** Under the invariant, `length()` is the number of distinct keys `has`
      finds. */
  lemma LengthCountsKeys(m: Map)
    requires Sound(m)
    ensures Length(m) == |KeySet(AllPairs(m.buckets))|
    ensures forall k :: k in KeySet(AllPairs(m.buckets)) <==> Has(m, k)
  {
    PairsMeanGet(m);
    DistinctKeySet(AllPairs(m.buckets));
    forall k
      ensures k in KeySet(AllPairs(m.buckets)) <==> Has(m, k)
    {
      HasIffGet(m, k);
      if Get(m, k).Some? {
        assert (k, Get(m, k).value) in AllPairs(m.buckets);
      }
    }
  }

  /** The nodes a run of pairs describes, one entry per pair. */
  function NodesOf(ps: seq<Pair>): (r: seq<Entry>)
    ensures |r| == |ps| && forall j :: 0 <= j < |ps| ==> r[j] == Entry(ps[j].0, ps[j].1)
  {
    seq(|ps|, j requires 0 <= j < |ps| => Entry(ps[j].0, ps[j].1))
  }

  /** The keys `getKeys` would keep from a run of pairs. */
  function KeysOf(ps: seq<Pair>): seq<Key>
  {
    KeysFrom(NodesOf(ps))
  }

  /** The values `getValues` would keep from a run of pairs. */
  function ValuesOf(ps: seq<Pair>): seq<Value>
  {
    ValuesFrom(NodesOf(ps))
  }

  lemma NodesOfConcat(a: seq<Pair>, c: seq<Pair>)
    ensures NodesOf(a + c) == NodesOf(a) + NodesOf(c)
  {
  }

  lemma NodesOfPairs(nodes: seq<Entry>)
    ensures NodesOf(PairsFrom(nodes)) == nodes
  {
  }

  lemma {:induction false} AllKeysOfPairs(buckets: seq<Option<List>>)
    ensures AllKeys(buckets) == KeysOf(AllPairs(buckets))
  {
    if buckets != [] {
      var h := SlotPairs(buckets[0]);
      AllKeysOfPairs(buckets[1..]);
      NodesOfConcat(h, AllPairs(buckets[1..]));
      KeysFromConcat(NodesOf(h), NodesOf(AllPairs(buckets[1..])));
      if buckets[0].Some? {
        NodesOfPairs(buckets[0].value.entries);
      }
    }
  }

  lemma {:induction false} AllValuesOfPairs(buckets: seq<Option<List>>)
    ensures AllValues(buckets) == ValuesOf(AllPairs(buckets))
  {
    if buckets != [] {
      var h := SlotPairs(buckets[0]);
      AllValuesOfPairs(buckets[1..]);
      NodesOfConcat(h, AllPairs(buckets[1..]));
      ValuesFromConcat(NodesOf(h), NodesOf(AllPairs(buckets[1..])));
      if buckets[0].Some? {
        NodesOfPairs(buckets[0].value.entries);
      }
    }
  }

  lemma KeysValuesOfEntries(m: Map)
    ensures Keys(m) == if m.length == 0 then None else Some(KeysOf(Entries(m).value))
    ensures Values(m) == if m.length == 0 then None else Some(ValuesOf(Entries(m).value))
  {
    AllKeysOfPairs(m.buckets);
    AllValuesOfPairs(m.buckets);
  }

  /** When no stored key is `""` and every stored value is truthy, `keys`,
      `values` and `entries` have `length` elements each and line up
      position by position. */
  lemma AccessorsAlign(m: Map)
    requires Sound(m) && m.length != 0
    requires forall k :: Get(m, k).Some? ==> k != "" && Truthy(Get(m, k).value)
    ensures var ks, vs, ps := Keys(m).value, Values(m).value, Entries(m).value;
            && |ks| == |vs| == |ps| == Length(m)
            && forall j :: 0 <= j < |ps| ==> ps[j] == (ks[j], vs[j])
  {
    var ps := Entries(m).value;
    EntriesMeanGet(m);
    KeysValuesOfEntries(m);
    forall j | 0 <= j < |ps| ensures ps[j].0 != "" && Truthy(ps[j].1) {
      assert ps[j] in ps;
    }
  }

}

=== FILE: js_value.dfy ===
/** The payloads a caller can store in the map. The map never inspects a
    value except for its JavaScript truthiness, which `getValues` tests, so
    a value is modelled by the primitive it is, and objects (including
    arrays and functions) only by their identity. */
module JsValue {

  datatype Value =
    | Undefined
    | Null
    | Bool(b: bool)
    | Number(n: real)            // a finite number; -0 is written as 0
    | Infinity(negative: bool)
    | NaN
    | Str(s: string)
    | BigInt(i: int)
    | Symbol(id: nat)            // a symbol, by identity
    | Object(ref: nat)           // an object, array or function reference

  /** JavaScript's ToBoolean: false, 0, 0n, NaN, "", null and undefined are
      falsy; every symbol and object is truthy. */
  predicate Truthy(v: Value)
  {
    match v
    case Undefined => false
    case Null => false
    case Bool(b) => b
    case Number(n) => n != 0.0
    case Infinity(_) => true
    case NaN => false
    case Str(s) => s != ""
    case BigInt(i) => i != 0
    case Symbol(_) => true
    case Object(_) => true
  }

}

=== FILE: linked_list.dfy ===
/** The bucket chain (`List.LinkedList` in linkedList.ts): a singly linked
    sequence of `{key, value}` entries with a separate `size` counter.

    A chain is modelled by the entries of the nodes reachable from `head`,
    head first, together with the counter. The source's operations do not all
    agree on which of the two they trust: `at`, `findIndex`, `append`,
    `shift`, `pop`, `insertAt` and `removeAt` consult `size`, while the walks
    (`containsKey`, `getKeys`, `getValues`, `getEntries`, and the node walks
    inside `at` and `findIndex`) follow the nodes. Each operation below is
    defined on every chain on which the source does not dereference `null`,
    counter and nodes in or out of step; `Valid` says they are in step. */
module LinkedList {

  import opened Wrappers
  import opened JsValue

  type Key = string

  /** The record a node carries. No caller ever stores a node without one. */
  datatype Entry = Entry(key: Key, value: Value)

  /** The `[key, value]` array `getEntries` produces for one node. */
  type Pair = (Key, Value)

  datatype List = List(entries: seq<Entry>, size: nat)

  /** A freshly constructed chain: no head, counter 0. */
  const Empty: List := List([], 0)

  /** The counter equals the number of nodes. */
  predicate Valid(l: List)
  {
    l.size == |l.entries|
  }

  /** The counter never exceeds the number of nodes. Every chain the hash
      map can build satisfies this, even once `remove` has pushed the counter
      below the node count; it is what keeps every walk off `null`. */
  predicate Linked(l: List)
  {
    l.size <= |l.entries|
  }

  // ---------------------------------------------------------------------
  // Node walks (they follow `next` pointers and never read `size`)
  // ---------------------------------------------------------------------

  /** The node reached after `i` steps from the head, if the walk gets there;
      a negative `i` is never matched. */
  function NodeAt(nodes: seq<Entry>, i: int): (r: Option<Entry>)
    ensures r == if 0 <= i < |nodes| then Some(nodes[i]) else None
  {
    if nodes == [] then None
    else if i == 0 then Some(nodes[0])
    else NodeAt(nodes[1..], i - 1)
  }

  /** The last node, reached by following `next` until it is `null`. */
  function LastNode(nodes: seq<Entry>): (r: Entry)
    requires nodes != []
    ensures r == nodes[|nodes| - 1]
  {
    if |nodes| == 1 then nodes[0] else LastNode(nodes[1..])
  }

  /** The position of the first node whose key is `key`, scanning from the head. */
  function FirstKeyIndex(nodes: seq<Entry>, key: Key): (r: Option<nat>)
    ensures r.Some? <==> exists j :: 0 <= j < |nodes| && nodes[j].key == key
    ensures r.Some? ==> r.value < |nodes| && nodes[r.value].key == key
    ensures r.Some? ==> forall j :: 0 <= j < r.value ==> nodes[j].key != key
  {
    if nodes == [] then None
    else if nodes[0].key == key then Some(0)
    else
      match FirstKeyIndex(nodes[1..], key)
      case None => None
      case Some(j) => Some(j + 1)
  }

  /** The keys `getKeys` collects: every node's key except the falsy `""`. */
  function KeysFrom(nodes: seq<Entry>): (r: seq<Key>)
    ensures |r| <= |nodes|
    ensures forall x :: x in r <==> x != "" && exists j :: 0 <= j < |nodes| && nodes[j].key == x
    ensures (forall j :: 0 <= j < |nodes| ==> nodes[j].key != "") ==>
              |r| == |nodes| && forall j :: 0 <= j < |nodes| ==> r[j] == nodes[j].key
  {
    if nodes == [] then []
    else (if nodes[0].key != "" then [nodes[0].key] else []) + KeysFrom(nodes[1..])
  }

  /** The values `getValues` collects: every node's value that is truthy. */
  function ValuesFrom(nodes: seq<Entry>): (r: seq<Value>)
    ensures |r| <= |nodes|
    ensures forall x :: x in r <==> Truthy(x) && exists j :: 0 <= j < |nodes| && nodes[j].value == x
    ensures (forall j :: 0 <= j < |nodes| ==> Truthy(nodes[j].value)) ==>
              |r| == |nodes| && forall j :: 0 <= j < |nodes| ==> r[j] == nodes[j].value
  {
    if nodes == [] then []
    else (if Truthy(nodes[0].value) then [nodes[0].value] else []) + ValuesFrom(nodes[1..])
  }

  lemma {:induction false} KeysFromConcat(a: seq<Entry>, c: seq<Entry>)
    ensures KeysFrom(a + c) == KeysFrom(a) + KeysFrom(c)
  {
    if a == [] {
      assert a + c == c;
    } else {
      var h := if a[0].key != "" then [a[0].key] else [];
      assert (a + c)[0] == a[0];
      assert (a + c)[1..] == a[1..] + c;
      KeysFromConcat(a[1..], c);
      calc {
        KeysFrom(a + c);
        h + KeysFrom(a[1..] + c);
        h + (KeysFrom(a[1..]) + KeysFrom(c));
        (h + KeysFrom(a[1..])) + KeysFrom(c);
      }
    }
  }

  lemma {:induction false} ValuesFromConcat(a: seq<Entry>, c: seq<Entry>)
    ensures ValuesFrom(a + c) == ValuesFrom(a) + ValuesFrom(c)
  {
    if a == [] {
      assert a + c == c;
    } else {
      var h := if Truthy(a[0].value) then [a[0].value] else [];
      assert (a + c)[0] == a[0];
      assert (a + c)[1..] == a[1..] + c;
      ValuesFromConcat(a[1..], c);
      calc {
        ValuesFrom(a + c);
        h + ValuesFrom(a[1..] + c);
        h + (ValuesFrom(a[1..]) + ValuesFrom(c));
        (h + ValuesFrom(a[1..])) + ValuesFrom(c);
      }
    }
  }

  /** The pairs `getEntries` collects: one `[key, value]` per node, since
      every node carries an entry. */
  function PairsFrom(nodes: seq<Entry>): (r: seq<Pair>)
    ensures |r| == |nodes|
    ensures forall j :: 0 <= j < |nodes| ==> r[j] == (nodes[j].key, nodes[j].value)
  {
    if nodes == [] then []
    else [(nodes[0].key, nodes[0].value)] + PairsFrom(nodes[1..])
  }

  // ---------------------------------------------------------------------
  // The chain's operations
  // ---------------------------------------------------------------------

  /** `append`: a zero counter makes the new node the head (dropping any
      nodes still linked); otherwise the walk to the tail links it there,
      which dereferences `null` if the counter is nonzero but there is no head. */
  function Append(l: List, e: Entry): (r: List)
    requires l.size == 0 || l.entries != []
    ensures r.size == l.size + 1
    ensures Valid(l) ==> Valid(r) && r.entries == l.entries + [e]
    ensures Linked(l) ==> Linked(r)
  {
    if l.size == 0 then List([e], 1)
    else List(l.entries + [e], l.size + 1)
  }

  /** `prepend`: the new node becomes the head. */
  function Prepend(l: List, e: Entry): (r: List)
    ensures r.size == l.size + 1
    ensures |r.entries| == |l.entries| + 1 && r.entries[0] == e
    ensures forall j :: 0 <= j < |l.entries| ==> r.entries[j + 1] == l.entries[j]
    ensures Valid(l) ==> Valid(r)
    ensures Linked(l) ==> Linked(r)
  {
    List([e] + l.entries, l.size + 1)
  }

  /** `getSize`. */
  function GetSize(l: List): (r: nat)
    ensures Valid(l) ==> r == |l.entries|
  {
    l.size
  }

  /** `tailNode`, returning the entry instead of the node. */
  function TailNode(l: List): (r: Option<Entry>)
    requires l.size == 0 || l.entries != []
    ensures Valid(l) ==> (r.Some? <==> l.entries != [])
    ensures r.Some? ==> r.value == l.entries[|l.entries| - 1]
  {
    if l.size == 0 then None else Some(LastNode(l.entries))
  }

  /** `at`: nothing on a zero counter; otherwise the walk from the head. */
  function At(l: List, i: int): (r: Option<Entry>)
    ensures r.Some? <==> l.size != 0 && 0 <= i < |l.entries|
    ensures r.Some? ==> r.value == l.entries[i]
    ensures Valid(l) ==> (r.Some? <==> 0 <= i < l.size)
  {
    if l.size == 0 then None else NodeAt(l.entries, i)
  }

  /** `shift`: drops the head unless the counter is 0. */
  function Shift(l: List): (r: List)
    requires l.size == 0 || l.entries != []
    ensures l.size == 0 ==> r == l
    ensures l.size != 0 ==> r.size == l.size - 1 && r.entries == l.entries[1..]
    ensures Valid(l) ==> Valid(r)
    ensures Linked(l) ==> Linked(r)
  {
    if l.size == 0 then l else List(l.entries[1..], l.size - 1)
  }

  /** `pop`: a counter of 1 clears the head; a larger one walks to the
      last-but-one node and unlinks its successor. */
  function Pop(l: List): (r: List)
    requires l.size <= 1 || |l.entries| >= 2
    ensures l.size == 0 ==> r == l
    ensures Valid(l) && l.size != 0 ==> Valid(r) && r.entries == l.entries[..l.size - 1]
    ensures Linked(l) ==> Linked(r)
  {
    if l.size == 0 then l
    else if l.size == 1 then List([], 0)
    else List(l.entries[..|l.entries| - 1], l.size - 1)
  }

  /** `containsKey`: walks every node, whatever the counter says. */
  function ContainsKey(l: List, key: Key): (r: bool)
    ensures r <==> exists j :: 0 <= j < |l.entries| && l.entries[j].key == key
  {
    FirstKeyIndex(l.entries, key).Some?
  }

  /** `findIndex`: `null` on a zero counter, else the first matching node. */
  function FindIndex(l: List, key: Key): (r: Option<nat>)
    ensures r.Some? <==> l.size != 0 && exists j :: 0 <= j < |l.entries| && l.entries[j].key == key
    ensures r.Some? ==> r.value < |l.entries| && l.entries[r.value].key == key
    ensures r.Some? ==> forall j :: 0 <= j < r.value ==> l.entries[j].key != key
  {
    if l.size == 0 then None else FirstKeyIndex(l.entries, key)
  }

  /** `getKeys`: walks the nodes, whatever the counter says, and keeps the
      truthy keys. */
  function GetKeys(l: List): (r: seq<Key>)
    ensures forall x :: x in r <==> x != "" && exists j :: 0 <= j < |l.entries| && l.entries[j].key == x
    ensures Valid(l) && (forall j :: 0 <= j < |l.entries| ==> l.entries[j].key != "") ==> |r| == GetSize(l)
  {
    KeysFrom(l.entries)
  }

  /** `getValues`: walks the nodes and keeps the truthy values. */
  function GetValues(l: List): (r: seq<Value>)
    ensures forall x :: x in r <==> Truthy(x) && exists j :: 0 <= j < |l.entries| && l.entries[j].value == x
    ensures Valid(l) && (forall j :: 0 <= j < |l.entries| ==> Truthy(l.entries[j].value)) ==> |r| == GetSize(l)
  {
    ValuesFrom(l.entries)
  }

  /** `getEntries`: walks the nodes and keeps one pair per node. */
  function GetEntries(l: List): (r: seq<Pair>)
    ensures |r| == |l.entries| && (Valid(l) ==> |r| == GetSize(l))
    ensures forall j :: 0 <= j < |r| ==> r[j] == (l.entries[j].key, l.entries[j].value)
  {
    PairsFrom(l.entries)
  }

  /** `insertAt`: an index outside `[0, size]` is ignored; 0 prepends, `size`
      appends, anything between is spliced in after a walk of `index` steps
      (which dereferences `null` if the chain is shorter than that). */
  function InsertAt(l: List, e: Entry, i: int): (r: List)
    requires 0 < i < l.size ==> i <= |l.entries|
    requires 0 < i == l.size ==> l.entries != []
    ensures !(0 <= i <= l.size) ==> r == l
    ensures 0 <= i <= l.size ==> r.size == l.size + 1
    ensures Valid(l) && 0 <= i <= l.size ==> Valid(r) && r.entries == l.entries[..i] + [e] + l.entries[i..]
    ensures Linked(l) ==> Linked(r)
    ensures |r.entries| <= |l.entries| + 1
  {
    if i < 0 || i > l.size then l
    else if i == 0 then Prepend(l, e)
    else if i == l.size then Append(l, e)
    else List(l.entries[..i] + [e] + l.entries[i..], l.size + 1)
  }

  /** `removeAt`: an index outside `[0, size)` is ignored; 0 shifts; any
      other index finds its predecessor with `at` and relinks it past the
      removed node when both exist. The counter drops either way. */
  function RemoveAt(l: List, i: int): (r: List)
    requires i == 0 < l.size ==> l.entries != []
    ensures !(0 <= i < l.size) ==> r == l
    ensures 0 <= i < l.size ==> r.size == l.size - 1
    ensures 0 <= i < l.size && i < |l.entries| ==> r.entries == l.entries[..i] + l.entries[i + 1..]
    ensures 0 <= i < l.size && i >= |l.entries| ==> r.entries == l.entries
    ensures Valid(l) ==> Valid(r)
    ensures Linked(l) ==> Linked(r)
    ensures |r.entries| <= |l.entries|
  {
    if i < 0 || i >= l.size then l
    else if i == 0 then Shift(l)
    else if At(l, i - 1).Some? && i < |l.entries| then List(l.entries[..i] + l.entries[i + 1..], l.size - 1)
    else List(l.entries, l.size - 1)
  }

  /** `removeAt(null)`, as the hash map calls it when `findIndex` finds
      nothing: `null < 0` is false and `null >= size` compares 0 with the
      counter, so a zero counter returns early; otherwise `at(null - 1)` is
      `at(-1)`, which finds no predecessor, and only the counter drops. */
  function RemoveAtNull(l: List): (r: List)
    ensures r.entries == l.entries
    ensures l.size == 0 ==> r == l
    ensures l.size != 0 ==> r.size == l.size - 1
    ensures Valid(l) && l.entries != [] ==> !Valid(r)
    ensures Linked(l) ==> Linked(r)
  {
    if 0 >= l.size then l else List(l.entries, l.size - 1)
  }

  /** `insertAt(e, null)`: every guard compares `null` as 0 against a
      nonnegative counter and fails, and the splice loop runs zero times with
      no predecessor, so the new node is linked nowhere; only the counter rises. */
  function InsertAtNull(l: List, e: Entry): (r: List)
    ensures r.entries == l.entries
    ensures r.size == l.size + 1
    ensures Valid(l) ==> !Valid(r)
  {
    List(l.entries, l.size + 1)
  }

  // ---------------------------------------------------------------------
  // Properties relating the operations
  // ---------------------------------------------------------------------

  /** `shift` undoes `prepend`, on any chain. */
  lemma ShiftPrepend(l: List, e: Entry)
    ensures Shift(Prepend(l, e)) == l
  {
    assert ([e] + l.entries)[1..] == l.entries;
  }

  /** `pop` undoes `append` on a chain whose counter is right. */
  lemma PopAppend(l: List, e: Entry)
    requires Valid(l)
    ensures Pop(Append(l, e)) == l
  {
    assert (l.entries + [e])[..|l.entries|] == l.entries;
  }

  /** After `append`, `tailNode` is the appended entry. */
  lemma TailAfterAppend(l: List, e: Entry)
    requires Valid(l)
    ensures TailNode(Append(l, e)) == Some(e)
  {
  }

  /** `removeAt(i)` undoes `insertAt(e, i)` for every in-range index. */
  lemma RemoveAtInsertAt(l: List, e: Entry, i: int)
    requires Valid(l) && 0 <= i <= l.size
    ensures RemoveAt(InsertAt(l, e, i), i) == l
  {
    var s := l.entries[..i] + [e] + l.entries[i..];
    assert s[..i] + s[i + 1..] == l.entries;
  }

  /** Removing the entry at `i` and inserting it again at `i` restores the chain. */
  lemma InsertAtRemoveAt(l: List, i: int)
    requires Valid(l) && 0 <= i < l.size
    ensures InsertAt(RemoveAt(l, i), l.entries[i], i) == l
  {
    var s := l.entries[..i] + l.entries[i + 1..];
    assert s[..i] + [l.entries[i]] + s[i..] == l.entries;
  }

  /** The position `findIndex` reports is one `at` can read, and its entry
      has the key searched for. */
  lemma AtFindIndex(l: List, key: Key)
    requires FindIndex(l, key).Some?
    ensures At(l, FindIndex(l, key).value).Some?
    ensures At(l, FindIndex(l, key).value).value.key == key
  {
  }

}

=== FILE: wrappers.dfy ===
/** The optional value used wherever the source returns a node, an index or
    a bucket that may be `null`. */
module Wrappers {

  datatype Option<+T> = None | Some(value: T)

}
